=== FILE: README.md ===
# decky-efibootmgr boot pipeline in Dafny

A Dafny model of the pure core of the decky-efibootmgr Steam Deck plugin's
frontend (`src/index.tsx`). The plugin reads the text `efibootmgr -v` prints
and parses it into a snapshot (`BootInfo`): the current boot, the next boot,
the boot order and one `BootEntry` per firmware boot option. From the snapshot
it derives the list the panel shows: only SteamOS and Windows entries, those
BootOrder lists first and in BootOrder's order, then the rest. The user moves
entries up and down in that list, and each move saves the list's boot numbers
as the new BootOrder.

Modules, in dependency order:

- `Optional`: the `Option` type that stands for JavaScript `null`/`undefined`.
- `Scan`: leftmost and rightmost search over positions, and maximal character
  runs.
- `Text`: the JavaScript built-ins the code calls (`trim`, `toLowerCase`,
  `includes`, `split`, `join`). It has one whitespace predicate, the
  ECMAScript WhiteSpace and LineTerminator set, which both `trim` and the
  regular-expression class `\s` use.
- `Seqs`: `Array.prototype.filter` and multiset facts.
- `BootModel`: `BootEntry` and `BootInfo`, `find` by number, and the number
  projection.
- `Label`: `extractOSName`.
- `Parser`: `parseBootOutput`.
  - Each of its four regular expressions is stated three ways:
    - a ghost predicate saying every way the pattern can match at a position, which is the pattern's meaning;
    - a greedy executable test;
    - a lemma showing the two agree, and that the reported capture is the one a backtracking engine prefers.
  - The per-line loop is a left fold. Lemmas characterise it against reference definitions that read the lines backwards.
- `WorkingOrder`: the filter/order block of `loadBootInfo`.
- `Reorder`: `handleMoveUp` and `handleMoveDown`, and the order `saveBootOrder` hands to the backend.
- `Status`: `getEntryName` and the two status rows.

Three behaviours of the code are worth knowing:

- A move saves only the shown entries' numbers. Every firmware entry that is not SteamOS or Windows therefore drops out of BootOrder (`Reorder.SavedOrderHasOnlyRecognized`).
- A BootOrder that repeats an id shows the entry once per repeat. For any id that BootOrder includes and a recognized entry carries, the shown list carries it exactly as often as BootOrder does (`WorkingOrder.RepeatedIdRepeatsEntry`). Every shown entry with such a number is the first recognized one (`WorkingOrder.WorkingOrderMembers`). The recognized entries whose numbers BootOrder leaves out come after the listed ones, in input order, so a new entry missing from BootOrder is still shown (`WorkingOrder.WorkingOrderFollowsBootOrder`).
- Saving and reloading shows exactly the list the user arranged. This needs unique numbers among the recognized entries and a repeat-free BootOrder (`Reorder.MoveUpReloads`, `Reorder.MoveDownReloads`). It also assumes the firmware stores exactly the saved order and keeps its entries: the reload is modelled as the old snapshot with BootOrder replaced by the saved ids. `Parser.BootOrderRoundTrip` shows that the line `efibootmgr` then prints for that order parses back to the same ids.

The code cuts the label at the pattern `\s+HD\(`, so any non-empty whitespace run before `HD(` ends it, not only a single space.

The source's `label` field is called `name` here because `label` is a Dafny keyword.

## Model

| member | source | states |
|---|---|---|
| Text.Trim | src/index.tsx:41 | The result has no leading or trailing whitespace, and a string that already has none is returned unchanged |
| Text.TrimIsSlice | src/index.tsx:41 | Trimming removes only whitespace, and only from the two ends: the result is a slice whose outside is all whitespace |
| Text.Split | src/index.tsx:56 | Splitting on a character yields at least one piece, and no piece contains the separator |
| Text.SplitCount | src/index.tsx:78 | Splitting yields exactly one more piece than the separator has occurrences |
| Text.SplitJoin | src/index.tsx:78 | Joining the pieces of a split with the same separator gives the text back |
| Text.JoinSplit | src/index.tsx:78 | Splitting the join of separator-free pieces gives the pieces back |
| Text.SplitConcat | src/index.tsx:56 | Splitting a + sep + b is splitting a, then b |
| Text.Join | main.py:36 | Definition: the pieces with the separator between neighbours. `Text.SplitJoin` and `Text.JoinSplit` characterise it as the inverse of `Split` |
| Text.Lower | src/index.tsx:46 | Definition: `toLowerCase` on ASCII letters, character by character. `Text.LowerOnlyCapitals` characterises it |
| Text.LowerOnlyCapitals | src/index.tsx:220 | Lower-casing keeps the length, turns each ASCII capital into the small letter at the same place in the alphabet (checked against a separate table of the 26 small letters), keeps every other character, and leaves no ASCII capital |
| Text.Contains | src/index.tsx:221 | Definition: `includes` holds exactly when the substring occurs at some position of the text |
| Seqs.Filter | src/index.tsx:219-222 | Filtering keeps exactly the elements that pass the test, and never lengthens the list |
| Seqs.FilterAppend | src/index.tsx:228 | Filtering commutes with concatenation, so relative input order is kept |
| Seqs.FilterCount | src/index.tsx:219-222 | Each value keeps all its copies when it passes the test and none when it does not |
| BootModel.FindNumber | src/index.tsx:225 | `find` by number returns the first entry with that number; it finds one exactly when some entry carries the number |
| BootModel.FindNumberOfUnique | src/index.tsx:225 | When no two entries share a number, `find` by the number at position i returns position i |
| BootModel.Numbers | src/index.tsx:248 | The saved order has one number per shown entry, position by position |
| Label.FirstField | src/index.tsx:41 | The result is the longest prefix without tab, CR or LF; the character after it is one of them |
| Label.MarkerAtIsRegexMatch | src/index.tsx:43 | The greedy test for `\s+HD\(` holds at a position exactly when the pattern can match there |
| Label.CutAtMarker | src/index.tsx:43 | The result is the prefix before the leftmost match of `\s+HD\(`, or the whole text when nothing matches |
| Label.CutHasNoMarker | src/index.tsx:43 | The cut text contains no further `\s+HD\(` match |
| Label.CleanLabel | src/index.tsx:41-43 | The cleaned label is a slice of the input with no tab, CR or LF, no surrounding whitespace and no `\s+HD\(` |
| Label.CleanLabelOfClean | src/index.tsx:41-43 | Cleaning leaves an already clean label unchanged |
| Label.ExtractOSName | src/index.tsx:39-51 | The name is a clean label that is "Windows" or does not mention "windows boot manager". It is "Windows" exactly when the lower-cased cleaned label contains "windows boot manager", and otherwise it is the cleaned label |
| Label.ExtractOSNameIdempotent | src/index.tsx:39-51 | Applying the normaliser twice is the same as applying it once |
| Label.ExtractOSNameFixedPoints | src/index.tsx:39-51 | The normaliser leaves a text unchanged exactly when the text is clean and either is "Windows" or does not mention "windows boot manager" |
| Label.WindowsBootManagerShowsAsWindows | src/index.tsx:46-48 | "Windows Boot Manager", a tab, then any device path gives "Windows" |
| Parser.HeaderAtIsRegexMatch | src/index.tsx:64 | The greedy test for `tag\s*(\d{4})` holds exactly when the pattern matches at that position, and its capture is the only possible one |
| Parser.MatchHeader | src/index.tsx:64-66 | A header capture is always four digits |
| Parser.MatchHeaderIsLeftmostMatch | src/index.tsx:64-73 | The header search reports nothing exactly when the pattern matches nowhere, and otherwise the capture of the leftmost match |
| Parser.OrderAtIsRegexMatch | src/index.tsx:76 | The greedy test for `BootOrder:\s*([\d,]+)` holds exactly when the pattern matches there, and its capture is the longest possible |
| Parser.OrderRun | src/index.tsx:76 | A BootOrder capture is a non-empty run of digits and commas |
| Parser.OrderRunIsLeftmostMatch | src/index.tsx:76-79 | The order search reports nothing exactly when the pattern matches nowhere, and otherwise the leftmost, longest capture |
| Parser.MatchOrder | src/index.tsx:76-79 | The parsed order exists exactly when the pattern matches. It has one more id than the run has commas, every id is digits only, and joining the ids with commas gives the run back |
| Parser.EntryAtIsRegexMatch | src/index.tsx:82 | The greedy test for `Boot(\d{4})(\*?)\s+(.+)` holds exactly when the pattern matches there, and its captures are the engine's preferred ones |
| Parser.EntryOfMatch | src/index.tsx:83-93 | An entry built from a match has id equal to number and a four-digit number. Its label is a clean label that is "Windows" or does not mention "windows boot manager" |
| Parser.MatchEntry | src/index.tsx:82-94 | Any entry a line yields is well formed |
| Parser.MatchEntryIsLeftmostMatch | src/index.tsx:82-94 | A line yields an entry exactly when the entry pattern matches somewhere in it. The match used is the leftmost one, with the captures a backtracking engine prefers: the '*' when present, then the longest whitespace run, then the longest label |
| Parser.MatchEntryFields | src/index.tsx:82-93 | The entry read from the leftmost match has the four digits after "Boot" as both number and id. It is active exactly when '*' follows the digits, and its label is the normaliser applied to the trimmed `(.+)` capture |
| Parser.Step | src/index.tsx:63-94 | Definition: one loop pass. The two headers take the line's capture when it has one, BootOrder is replaced when the order pattern matches, and at most one entry is appended. `Parser.StepKeepsWellFormed` and `Parser.ParseLinesReadsEveryLine` characterise it |
| Parser.ParseLines | src/index.tsx:62-95 | Definition: the loop as a left fold of `Step` over the lines. `Parser.ParseLinesAppend`, `Parser.ParseLinesReadsEveryLine` and `Parser.ParseLinesKeepsWellFormed` characterise it |
| Parser.ParseBootOutput | src/index.tsx:54-102 | Definition: split the output on LF and fold the lines from the empty snapshot. `Parser.ParseBootOutputByLines`, `Parser.ParseConcat` and `Parser.ParseBootOutputWellFormed` characterise it |
| Parser.ParseLinesKeepsWellFormed | src/index.tsx:62-95 | Reading lines keeps the snapshot well formed: four-digit headers, digit-only order ids, well-formed entries |
| Parser.ParseBootOutputWellFormed | src/index.tsx:54-102 | Every parse result is well formed; the parser never fails |
| Parser.ParseLinesAppend | src/index.tsx:62-95 | Reading a + b is reading a, then b from the resulting snapshot |
| Parser.LastOrder | src/index.tsx:76-78 | An order taken from a line is never empty |
| Parser.ParseLinesReadsEveryLine | src/index.tsx:56-97 | The snapshot holds one entry per matching line, in line order, and each header holds the capture of the last line that sets it, or its earlier value |
| Parser.ParseBootOutputByLines | src/index.tsx:54-97 | A parse yields the entries of all matching lines. A header with no matching line stays null, and a missing BootOrder stays empty |
| Parser.ParseLinesFrom | src/index.tsx:62-95 | Reading lines on top of a snapshot is merging that snapshot with what the lines give on their own |
| Parser.ParseConcat | src/index.tsx:56-95 | The snapshot of t1 + LF + t2 merges those of t1 and t2: later headers win and entries accumulate |
| Parser.UnmatchedLinesChangeNothing | src/index.tsx:62-95 | Lines that match none of the four patterns leave the snapshot as it was |
| Parser.NothingMatchedGivesEmptySnapshot | src/index.tsx:57-60 | Text with no matching line parses to no current, no next, an empty order and no entries, not to a failure |
| Parser.BootOrderRoundTrip | src/index.tsx:76-79 | Parsing "BootOrder: " followed by comma-joined, non-empty digit ids gives back exactly those ids, with no header and no entry |
| WorkingOrder.IsRecognized | src/index.tsx:220-221 | Definition: the lower-cased label includes "steamos" or "windows" |
| WorkingOrder.Recognized | src/index.tsx:219-222 | Definition: `filteredEntries`, the entries passing `IsRecognized` in input order. `Seqs.Filter` and `WorkingOrder.WorkingOrderMembers` characterise it |
| WorkingOrder.Listed | src/index.tsx:224-226 | The listed numbers are BootOrder minus the ids no recognized entry carries, in BootOrder's order |
| WorkingOrder.ListedAreFirst | src/index.tsx:224-226 | Each listed entry is the first recognized entry with its number |
| WorkingOrder.Unlisted | src/index.tsx:228 | Definition: `remaining`, the recognized entries whose number BootOrder does not include. `WorkingOrder.WorkingOrderFollowsBootOrder` shows it is the suffix of the shown list |
| WorkingOrder.DeriveWorkingOrder | src/index.tsx:219-229 | Only recognized input entries are shown, and every entry BootOrder lists comes before every entry it does not |
| WorkingOrder.WorkingOrderMembers | src/index.tsx:219-229 | An entry is shown exactly when it is recognized and, if BootOrder lists its number, it is the first recognized entry with that number |
| WorkingOrder.WorkingOrderFollowsBootOrder | src/index.tsx:224-229 | The shown list is a prefix whose numbers follow BootOrder with unknown ids dropped, then the recognized entries BootOrder omits, in input order |
| WorkingOrder.WorkingOrderIsPermutation | src/index.tsx:219-229 | With unique numbers and a repeat-free BootOrder, the shown list is a permutation of the recognized entries and shows each number once |
| WorkingOrder.ShownAreRecognized | src/index.tsx:219-229 | When no two recognized entries share a number, an entry is shown exactly when it is recognized, whatever BootOrder holds |
| WorkingOrder.WorkingOrderUnique | src/index.tsx:219-229 | Under the same conditions no number is shown twice |
| WorkingOrder.RepeatedIdRepeatsEntry | src/index.tsx:224-229 | For an id that BootOrder includes and a recognized entry carries, the shown list has that number exactly as many times as BootOrder has the id |
| WorkingOrder.WorkingOrderBounded | src/index.tsx:219-229 | With a repeat-free BootOrder the shown list is no longer than the list of recognized entries |
| WorkingOrder.ListedWithinOrdered | src/index.tsx:224-226 | With a repeat-free BootOrder, `ordered` repeats no entry, and every entry of it is a recognized entry whose number BootOrder includes |
| Reorder.SaveOrder | src/index.tsx:248 | Definition: the shown list mapped to its boot numbers. `Reorder.MoveUp`, `Reorder.MoveDown` and `Reorder.SavedOrderReloads` characterise what is saved |
| Reorder.Swap | src/index.tsx:264 | Exchanging two positions changes only those two, and keeps length and multiset |
| Reorder.MoveUp | src/index.tsx:261-267 | Moving the first entry up changes nothing and saves nothing. Any other move up exchanges the entry with the one above, keeps everything else and the multiset, and saves exactly the new list's numbers |
| Reorder.MoveDown | src/index.tsx:269-275 | Moving the last entry down changes nothing and saves nothing. Any other move down exchanges the entry with the one below, keeps everything else and the multiset, and saves exactly the new list's numbers |
| Reorder.MoveUpIsMoveDownAbove | src/index.tsx:261-275 | Moving entry i up is moving entry i-1 down |
| Reorder.MoveDownThenUpRestores | src/index.tsx:261-275 | Moving entry i down and then entry i+1 up restores the list |
| Reorder.MoveUpThenDownRestores | src/index.tsx:261-275 | Moving entry i up and then entry i-1 down restores the list |
| Reorder.SavedOrderReloads | src/index.tsx:247-252 | Saving a permutation of the recognized entries, with unique numbers, and deriving the list again from the saved order gives the same list |
| Reorder.MoveUpReloads | src/index.tsx:261-267 | After a move up, its save and the reload, the panel shows the moved list |
| Reorder.MoveDownReloads | src/index.tsx:269-275 | After a move down, its save and the reload, the panel shows the moved list |
| Reorder.SavedOrderHasOnlyRecognized | src/index.tsx:248 | Every number a move saves belongs to a SteamOS or Windows entry |
| Status.EntryName | src/index.tsx:309-313 | The name is "unknown" exactly for a missing or empty number. Otherwise it is the label of the first entry with that number, or "Boot" followed by the number when there is none |
| Status.CurrentBootName | src/index.tsx:321 | Definition: `getEntryName` of BootCurrent, or of null without a snapshot. `Status.StatusOfParsedOutput` characterises it |
| Status.NextBootName | src/index.tsx:324 | Definition: `getEntryName` of BootNext when that is set and non-empty, otherwise "follow boot order". `Status.StatusOfParsedOutput` characterises it |
| Status.StatusOfParsedOutput | src/index.tsx:321-324 | For parsed output, "unknown" and "follow boot order" appear exactly when the header is missing. Any other name is a clean label or "Boot" plus four digits |

## Left out

- `main.py` runs `efibootmgr` as a subprocess. Process I/O is outside the model, and only its comma join (line 36) is modelled, as `Text.Join`.
- `src/i18n.ts` is not part of this model. It holds translation tables and the Steam client language lookup; status texts are the `StatusName` constructors instead.
- React state, rendering, styling, loading and error flags, and toaster notifications. They are UI plumbing with no logic to state.
- The asynchronous request/reload flow. Out-of-order completion of rapid clicks depends on the backend and on concurrency.
- The `catch` branch of `parseBootOutput`. String operations on a string input cannot throw, so the parser is modelled as total.
- `handleSetBootNext` and the next-boot buttons. They only forward an entry's number to the backend.
- JavaScript strings are UTF-16 code units; the model uses Unicode scalar values. Surrogate pairs are not modelled.
- `toLowerCase` is modelled on ASCII letters only. Only two non-ASCII characters lower to ASCII: U+212A becomes 'k' and U+0130 becomes "i" plus a combining dot. The keywords have no 'k', and the dot breaks any match through 'i', so the keyword tests agree.
- Reorder.MoveUp: the index must lie inside the list (`index < |order|`). The handler does not check it, but the buttons only pass positions of the shown list.
- Reorder.MoveDown: the index must lie inside the list (`index < |order|`), for the same reason as `MoveUp`.
- WorkingOrder.WorkingOrderBounded: proved for a repeat-free BootOrder only. The general bound is not stated: the shown list is at most the recognized entries plus the repeated BootOrder positions. `WorkingOrder.RepeatedIdRepeatsEntry` gives the exact count for each repeated id instead.

=== FILE: boot_model.dfy ===
/** The records the panel works on: one firmware boot option and the parsed
    boot configuration (src/index.tsx, `BootEntry` and `BootInfo`). */
module BootModel {
  import opened Optional
  import opened Seqs

  /** One firmware boot option. The parser stores the same four digits in
      `id` and `number`; the list key uses the first, every lookup the second.
      `name` is the source's `label` field (`label` is a Dafny keyword). */
  datatype BootEntry = BootEntry(id: string, number: string, name: string, isActive: bool)

  /** The parsed boot configuration. `bootOrder` may name numbers that have no
      entry; `entries` keeps input line order. */
  datatype BootInfo = BootInfo(
    bootCurrent: Option<string>,
    bootNext: Option<string>,
    bootOrder: seq<string>,
    entries: seq<BootEntry>)

  /** The snapshot before any line has been read. */
  const EmptyInfo := BootInfo(None, None, [], [])

  /** `entries.find(e => e.number === num)` as a position: the first entry
      with that number, or |entries| when there is none. */
  function FindNumber(entries: seq<BootEntry>, num: string): (k: nat)
    ensures k <= |entries|
    ensures k < |entries| ==> entries[k].number == num
    ensures forall j | 0 <= j < k :: entries[j].number != num
    ensures k < |entries| <==> HasNumber(entries, num)
  {
    if |entries| == 0 || entries[0].number == num then 0
    else 1 + FindNumber(entries[1..], num)
  }

  /** Some entry carries the number. */
  predicate HasNumber(entries: seq<BootEntry>, num: string) {
    exists k | 0 <= k < |entries| :: entries[k].number == num
  }

  /** `entries.map(e => e.number)`: the order `saveBootOrder` hands to the backend. */
  function Numbers(entries: seq<BootEntry>): (r: seq<string>)
    ensures |r| == |entries|
    ensures forall k | 0 <= k < |entries| :: r[k] == entries[k].number
  {
    if |entries| == 0 then [] else [entries[0].number] + Numbers(entries[1..])
  }

  /** The numbers of a concatenation are the concatenated numbers. */
  lemma NumbersAppend(a: seq<BootEntry>, b: seq<BootEntry>)
    ensures Numbers(a + b) == Numbers(a) + Numbers(b)
  {
  }

  /** No two entries share a number. */
  predicate UniqueNumbers(entries: seq<BootEntry>) {
    forall i, j | 0 <= i < j < |entries| :: entries[i].number != entries[j].number
  }

  /** Filtering keeps numbers distinct. */
  lemma {:induction false} UniqueNumbersFilter(s: seq<BootEntry>, p: BootEntry -> bool)
    requires UniqueNumbers(s)
    ensures UniqueNumbers(Filter(s, p))
    decreases |s|
  {
    if |s| > 0 {
      assert UniqueNumbers(s[1..]);
      UniqueNumbersFilter(s[1..], p);
      var tail := Filter(s[1..], p);
      forall k | 0 <= k < |tail|
        ensures tail[k].number != s[0].number
      {
        assert tail[k] in s[1..];
      }
    }
  }

  /** With distinct numbers, looking up the number at position i finds i. */
  lemma FindNumberOfUnique(s: seq<BootEntry>, i: nat)
    requires UniqueNumbers(s)
    requires i < |s|
    ensures FindNumber(s, s[i].number) == i
  {
    var k := FindNumber(s, s[i].number);
    assert k <= i;
    assert s[k].number == s[i].number;
  }

  /** Entries with distinct numbers are distinct. */
  lemma UniqueNumbersDistinct(s: seq<BootEntry>)
    requires UniqueNumbers(s)
    ensures Distinct(s)
  {
    forall i, j | 0 <= i < j < |s|
      ensures s[i] != s[j]
    {
      assert s[i].number != s[j].number;
    }
  }
}

=== FILE: label.dfy ===
/** `extractOSName` (src/index.tsx:39-51): reduces a raw firmware description
    to a short operating-system name. */
module Label {
  import opened Scan
  import opened Text

  /** The class [\t\r\n] the first split uses. */
  predicate IsFieldBreak(c: char) {
    c == '\t' || c == '\r' || c == '\n'
  }

  predicate NoFieldBreak(s: string) {
    forall k | 0 <= k < |s| :: !IsFieldBreak(s[k])
  }

  /** `s.split(/[\t\r\n]/)[0]`: the text before the first tab, CR or LF. */
  function FirstField(s: string): (r: string)
    ensures |r| <= |s| && r == s[..|r|]
    ensures NoFieldBreak(r)
    ensures |r| < |s| ==> IsFieldBreak(s[|r|])
  {
    var isBreak := (i: nat) => i < |s| && IsFieldBreak(s[i]);
    var k := FirstWhere(isBreak, 0, |s|);
    forall j | 0 <= j < k
      ensures !IsFieldBreak(s[..k][j])
    {
      assert !isBreak(j);
    }
    assert k < |s| ==> isBreak(k);
    s[..k]
  }

  /** The literal "HD(" occupies s[k..k+3]. */
  predicate DevicePathAt(s: string, k: int) {
    0 <= k && k + 3 <= |s| && s[k] == 'H' && s[k + 1] == 'D' && s[k + 2] == '('
  }

  /** One way the pattern \s+HD\( can match at i: whitespace on [i, k)
      (at least one character), then the literal "HD(". */
  ghost predicate MarkerShape(s: string, i: int, k: int) {
    0 <= i < k && AllIn(s, i, k, IsSpace) && DevicePathAt(s, k)
  }

  /** The pattern \s+HD\( cannot match anywhere in s. */
  ghost predicate NoMarker(s: string) {
    forall i, k :: !MarkerShape(s, i, k)
  }

  /** The backtracking-free test for \s+HD\( at i: the greedy whitespace run
      from i is non-empty and is followed by "HD(". Giving back whitespace
      never helps, because the character after a shorter run is whitespace
      and not 'H'. */
  predicate MarkerAt(s: string, i: nat) {
    i < |s| && IsSpace(s[i]) &&
    DevicePathAt(s, RunEnd(s, i, IsSpace))
  }

  /** The greedy test agrees with the pattern's meaning at every position. */
  lemma MarkerAtIsRegexMatch(s: string, i: nat)
    ensures MarkerAt(s, i) <==> exists k :: MarkerShape(s, i, k)
  {
    if MarkerAt(s, i) {
      assert MarkerShape(s, i, RunEnd(s, i, IsSpace));
    }
    if k :| MarkerShape(s, i, k) {
      assert s[k] == 'H';
      RunEndUnique(s, i, k, IsSpace);
    }
  }

  /** `s.split(/\s+HD\(/)[0]`: the text before the leftmost match. */
  function CutAtMarker(s: string): (r: string)
    ensures |r| <= |s| && r == s[..|r|]
    ensures |r| < |s| ==> MarkerAt(s, |r|)
    ensures forall i | 0 <= i < |r| :: !MarkerAt(s, i)
  {
    var at := (i: nat) => MarkerAt(s, i);
    var k := FirstWhere(at, 0, |s|);
    forall i | 0 <= i < k
      ensures !MarkerAt(s, i)
    {
      assert !at(i);
    }
    assert k < |s| ==> at(k);
    s[..k]
  }

  /** The piece before the leftmost match contains no match. */
  lemma CutHasNoMarker(s: string)
    ensures NoMarker(CutAtMarker(s))
  {
    var r := CutAtMarker(s);
    forall i, k | MarkerShape(r, i, k)
      ensures false
    {
      assert MarkerShape(s, i, k);
      MarkerAtIsRegexMatch(s, i);
    }
  }

  /** A slice of a string without a match has no match either. */
  lemma NoMarkerSlice(s: string, a: int, b: int)
    requires 0 <= a <= b <= |s| && NoMarker(s)
    ensures NoMarker(s[a..b])
  {
    var t := s[a..b];
    forall i, k | MarkerShape(t, i, k)
      ensures false
    {
      assert MarkerShape(s, a + i, a + k);
    }
  }

  /** A string in which 'H' never occurs has no match. */
  lemma NoMarkerWithoutH(s: string)
    requires 'H' !in s
    ensures NoMarker(s)
  {
  }

  /** A slice of a string without field breaks has none either. */
  lemma NoFieldBreakSlice(s: string, a: int, b: int)
    requires 0 <= a <= b <= |s| && NoFieldBreak(s)
    ensures NoFieldBreak(s[a..b])
  {
    assert forall j | 0 <= j < b - a :: s[a..b][j] == s[a + j];
  }

  /** The display label before the Windows rename has the shape the rest of
      the panel relies on. */
  ghost predicate IsCleanLabel(s: string) {
    IsTrimmed(s) && NoFieldBreak(s) && NoMarker(s)
  }

  /** Lines 41-43: first field, trimmed, cut at the first device path,
      trimmed again. The result is a slice of the input. */
  function CleanLabel(full: string): (r: string)
    ensures IsCleanLabel(r)
    ensures exists a :: SliceAt(r, full, a)
  {
    var first := FirstField(full);
    var t1 := Trim(first);
    var cut := CutAtMarker(t1);
    var r := Trim(cut);
    CleanLabelSteps(full, first, t1, cut, r);
    r
  }

  lemma CleanLabelSteps(full: string, first: string, t1: string, cut: string, r: string)
    requires first == FirstField(full) && t1 == Trim(first) && cut == CutAtMarker(t1) && r == Trim(cut)
    ensures IsCleanLabel(r)
    ensures exists a :: SliceAt(r, full, a)
  {
    CleanLabelStepsClean(full, first, t1, cut, r);
    var a := CleanLabelStepsSlice(full, first, t1, cut, r);
  }

  /** Each step keeps the text free of field breaks and device paths. */
  lemma CleanLabelStepsClean(full: string, first: string, t1: string, cut: string, r: string)
    requires first == FirstField(full) && t1 == Trim(first) && cut == CutAtMarker(t1) && r == Trim(cut)
    ensures IsCleanLabel(r)
  {
    var a := FirstFieldTrimmed(full);
    CutKeepsClean(t1);
    var b := TrimKeepsClean(cut);
  }

  /** Each step takes a slice, so the result is a slice of the input. */
  lemma CleanLabelStepsSlice(full: string, first: string, t1: string, cut: string, r: string)
      returns (c: nat)
    requires first == FirstField(full) && t1 == Trim(first) && cut == CutAtMarker(t1) && r == Trim(cut)
    ensures SliceAt(r, full, c)
  {
    assert SliceAt(first, full, 0);
    var a := TrimSlice(first, full, 0);
    assert SliceAt(cut, t1, 0);
    SliceTrans(cut, t1, full, 0, a);
    c := TrimSlice(cut, full, a);
  }

  /** Trimming a slice leaves a slice of the same text. */
  lemma TrimSlice(s: string, z: string, a: int) returns (c: nat)
    requires SliceAt(s, z, a)
    ensures SliceAt(Trim(s), z, c)
  {
    var b := TrimIsSlice(s);
    SliceTrans(Trim(s), s, z, b, a);
    c := b + a;
  }

  /** Trimming keeps a text free of field breaks and of markers. */
  lemma TrimKeepsClean(s: string) returns (a: nat)
    ensures SliceAt(Trim(s), s, a)
    ensures NoFieldBreak(s) ==> NoFieldBreak(Trim(s))
    ensures NoMarker(s) ==> NoMarker(Trim(s))
  {
    a := TrimIsSlice(s);
    SliceKeepsClean(s, Trim(s), a);
  }

  /** A slice keeps the absence of field breaks and of device paths. */
  lemma SliceKeepsClean(s: string, r: string, a: int)
    requires SliceAt(r, s, a)
    ensures NoFieldBreak(s) ==> NoFieldBreak(r)
    ensures NoMarker(s) ==> NoMarker(r)
  {
    if NoFieldBreak(s) {
      NoFieldBreakSlice(s, a, a + |r|);
    }
    if NoMarker(s) {
      NoMarkerSlice(s, a, a + |r|);
    }
  }

  /** The trimmed first field is a slice of the input without field breaks. */
  lemma FirstFieldTrimmed(full: string) returns (a: nat)
    ensures NoFieldBreak(Trim(FirstField(full)))
    ensures SliceAt(Trim(FirstField(full)), full, a)
  {
    var f := FirstField(full);
    assert SliceAt(f, full, 0);
    a := TrimKeepsClean(f);
    SliceTrans(Trim(f), f, full, a, 0);
  }

  /** Cutting keeps a prefix free of field breaks, with no marker left. */
  lemma CutKeepsClean(t: string)
    requires NoFieldBreak(t)
    ensures NoFieldBreak(CutAtMarker(t)) && NoMarker(CutAtMarker(t))
    ensures SliceAt(CutAtMarker(t), t, 0)
  {
    CutHasNoMarker(t);
    NoFieldBreakSlice(t, 0, |CutAtMarker(t)|);
  }

  /** "Windows" is itself a clean label. */
  lemma WindowsIsClean()
    ensures IsCleanLabel("Windows")
  {
    NoMarkerWithoutH("Windows");
  }

  /** A clean label passes through the clean-up unchanged. */
  lemma CleanLabelOfClean(s: string)
    requires IsCleanLabel(s)
    ensures CleanLabel(s) == s
  {
    var f := FirstField(s);
    assert f == s;
    assert Trim(s) == s;
    var c := CutAtMarker(s);
    assert !MarkerShape(s, |c|, RunEnd(s, |c|, IsSpace));
    assert c == s;
  }

  const WindowsBootManager := "windows boot manager"

  /** `extractOSName`: the clean label, or "Windows" when the clean label,
      lower-cased, mentions the Windows Boot Manager. */
  function ExtractOSName(full: string): (r: string)
    ensures IsDisplayName(r)
    ensures Contains(Lower(CleanLabel(full)), WindowsBootManager) ==> r == "Windows"
    ensures !Contains(Lower(CleanLabel(full)), WindowsBootManager) ==> r == CleanLabel(full)
  {
    var name := CleanLabel(full);
    WindowsIsClean();
    if Contains(Lower(name), WindowsBootManager) then "Windows" else name
  }

  /** What the normaliser can return: a clean label that is "Windows" or
      does not mention the Windows Boot Manager. */
  ghost predicate IsDisplayName(s: string) {
    IsCleanLabel(s) && (s == "Windows" || !Contains(Lower(s), WindowsBootManager))
  }

  /** Applying the normaliser to its own output changes nothing. */
  lemma ExtractOSNameIdempotent(full: string)
    ensures ExtractOSName(ExtractOSName(full)) == ExtractOSName(full)
  {
    var r := ExtractOSName(full);
    CleanLabelOfClean(r);
  }

  /** The labels the normaliser leaves alone are exactly the clean labels
      that do not mention the Windows Boot Manager, plus "Windows" itself. */
  lemma ExtractOSNameFixedPoints(s: string)
    ensures ExtractOSName(s) == s <==> IsDisplayName(s)
  {
    if IsCleanLabel(s) {
      CleanLabelOfClean(s);
    }
  }

  /** The first field is everything before the first tab, CR or LF. */
  lemma FirstFieldAtBreak(head: string, c: char, rest: string)
    requires NoFieldBreak(head) && IsFieldBreak(c)
    ensures FirstField(head + [c] + rest) == head
  {
    var s := head + [c] + rest;
    var r := FirstField(s);
    assert s[|head|] == c;
  }

  lemma LowerWindowsBootManager()
    ensures Lower("Windows Boot Manager") == WindowsBootManager
  {
    var l := Lower("Windows Boot Manager");
    assert |l| == |WindowsBootManager|;
    forall k | 0 <= k < |l|
      ensures l[k] == WindowsBootManager[k]
    {
    }
  }

  lemma WindowsBootManagerIsClean()
    ensures IsCleanLabel("Windows Boot Manager")
  {
    var name := "Windows Boot Manager";
    assert NoFieldBreak(name);
    NoMarkerWithoutH(name);
  }

  /** A firmware description that starts with "Windows Boot Manager" and a
      tab shows as "Windows", whatever device path follows. */
  lemma WindowsBootManagerShowsAsWindows(rest: string)
    ensures ExtractOSName("Windows Boot Manager" + "\t" + rest) == "Windows"
  {
    var name := "Windows Boot Manager";
    WindowsBootManagerIsClean();
    FirstFieldAtBreak(name, '\t', rest);
    CleanLabelOfClean(name);
    LowerWindowsBootManager();
    assert OccursAt(Lower(name), WindowsBootManager, 0);
  }
}

=== FILE: optional.dfy ===
/** The optional value that stands in for the source's `string | null`. */
module Optional {

  datatype Option<+T> = None | Some(value: T)
}

=== FILE: parser.dfy ===
/** `parseBootOutput` (src/index.tsx:54-102): turns the text report of
    `efibootmgr -v` into a BootInfo. The text is split on LF and four
    independent, unanchored regular expressions are tried on every line:

      BootCurrent:\s*(\d{4})      BootNext:\s*(\d{4})
      BootOrder:\s*([\d,]+)       Boot(\d{4})(\*?)\s+(.+)

    Each expression is modelled three ways: a ghost "shape" predicate that
    lists every way the expression can match at a position (its meaning), a
    greedy test at a position (what the backtracking engine ends up doing),
    and a lemma that the two agree, including which of several possible
    matches the engine reports. The leftmost position that matches is found
    with Scan.FirstWhere, as `String.prototype.match` does without `g`. */
module Parser {
  import opened Optional
  import opened Scan
  import opened Text
  import opened Label
  import opened BootModel
  import Seqs

  const CurrentTag := "BootCurrent:"
  const NextTag := "BootNext:"
  const OrderTag := "BootOrder:"
  const EntryTag := "Boot"

  /** A firmware boot number as the header and entry patterns capture it: four digits. */
  predicate IsBootNumber(s: string) {
    |s| == 4 && AllDigits(s)
  }

  // ---------------------------------------------------------------------
  // BootCurrent:\s*(\d{4}) and BootNext:\s*(\d{4})
  // ---------------------------------------------------------------------

  /** One way `tag\s*(\d{4})` can match at i: the tag, whitespace on
      [i + |tag|, e), four digits at e. The capture is s[e..e + 4]. */
  ghost predicate HeaderShape(s: string, tag: string, i: int, e: int) {
    OccursAt(s, tag, i) && AllIn(s, i + |tag|, e, IsSpace) && AllIn(s, e, e + 4, IsDigit)
  }

  /** Where the digits start when the pattern is tried at i: after the greedy whitespace run. */
  function HeaderDigits(s: string, tag: string, i: nat): nat
    requires OccursAt(s, tag, i)
  {
    RunEnd(s, i + |tag|, IsSpace)
  }

  /** The greedy test at i. Giving back whitespace never helps, because a
      shorter run is followed by whitespace, which is not a digit. */
  predicate HeaderAt(s: string, tag: string, i: nat) {
    OccursAt(s, tag, i) && AllIn(s, HeaderDigits(s, tag, i), HeaderDigits(s, tag, i) + 4, IsDigit)
  }

  /** The greedy test matches exactly when the pattern can match, and then
      the pattern has only one way to match: the capture is determined. */
  lemma HeaderAtIsRegexMatch(s: string, tag: string, i: nat)
    ensures HeaderAt(s, tag, i) <==> exists e :: HeaderShape(s, tag, i, e)
    ensures forall e | HeaderShape(s, tag, i, e) :: e == HeaderDigits(s, tag, i)
  {
    if HeaderAt(s, tag, i) {
      assert HeaderShape(s, tag, i, HeaderDigits(s, tag, i));
    }
    forall e | HeaderShape(s, tag, i, e)
      ensures e == HeaderDigits(s, tag, i)
    {
      assert IsDigit(s[e]);
      RunEndUnique(s, i + |tag|, e, IsSpace);
    }
  }

  /** The first capture of `tag\s*(\d{4})` in the line, if any. */
  function MatchHeader(s: string, tag: string): (r: Option<string>)
    ensures r.Some? ==> IsBootNumber(r.value)
  {
    var at := (i: nat) => HeaderAt(s, tag, i);
    var i := FirstWhere(at, 0, |s|);
    if i == |s| then None
    else
      assert at(i);
      var e := HeaderDigits(s, tag, i);
      AllInSlice(s, e, e + 4, IsDigit);
      Some(s[e..e + 4])
  }

  /** MatchHeader reports the leftmost match of the pattern, or nothing when
      the pattern matches nowhere in the line. */
  lemma MatchHeaderIsLeftmostMatch(s: string, tag: string)
    ensures MatchHeader(s, tag).None? <==> forall i, e :: !HeaderShape(s, tag, i, e)
    ensures MatchHeader(s, tag).Some? ==>
              exists i, e :: HeaderShape(s, tag, i, e) && MatchHeader(s, tag).value == s[e..e + 4]
                             && forall j, e' | j < i :: !HeaderShape(s, tag, j, e')
  {
    var at := (i: nat) => HeaderAt(s, tag, i);
    var i := FirstWhere(at, 0, |s|);
    forall j: int, e' | j < i
      ensures !HeaderShape(s, tag, j, e')
    {
      if 0 <= j {
        assert !at(j);
        HeaderAtIsRegexMatch(s, tag, j);
      }
    }
    if i < |s| {
      assert at(i);
      HeaderAtIsRegexMatch(s, tag, i);
      assert HeaderShape(s, tag, i, HeaderDigits(s, tag, i));
    } else {
      forall j: int, e' | HeaderShape(s, tag, j, e')
        ensures j < i
      {
      }
    }
  }

  // ---------------------------------------------------------------------
  // BootOrder:\s*([\d,]+)
  // ---------------------------------------------------------------------

  /** The class [\d,]. */
  predicate IsOrderChar(c: char) {
    IsDigit(c) || c == ','
  }

  /** One way `BootOrder:\s*([\d,]+)` can match at i: the tag, whitespace on
      [i + 10, e), then a non-empty run of digits and commas on [e, m). */
  ghost predicate OrderShape(s: string, i: int, e: int, m: int) {
    OccursAt(s, OrderTag, i) && AllIn(s, i + |OrderTag|, e, IsSpace) && e < m && AllIn(s, e, m, IsOrderChar)
  }

  function OrderRunStart(s: string, i: nat): nat
    requires OccursAt(s, OrderTag, i)
  {
    RunEnd(s, i + |OrderTag|, IsSpace)
  }

  /** The greedy test at i: after the greedy whitespace run comes a digit or a comma. */
  predicate OrderAt(s: string, i: nat) {
    OccursAt(s, OrderTag, i) && OrderRunStart(s, i) < |s| && IsOrderChar(s[OrderRunStart(s, i)])
  }

  /** The end of the greedy [\d,]+ run when the pattern matches at i. */
  function OrderRunEnd(s: string, i: nat): nat
    requires OrderAt(s, i)
  {
    RunEnd(s, OrderRunStart(s, i), IsOrderChar)
  }

  /** The greedy test matches exactly when the pattern can match, and the
      reported capture is the longest one: every other way to match at i
      starts the run at the same place and ends it no later. */
  lemma OrderAtIsRegexMatch(s: string, i: nat)
    ensures OrderAt(s, i) <==> exists e, m :: OrderShape(s, i, e, m)
    ensures OrderAt(s, i) ==> OrderShape(s, i, OrderRunStart(s, i), OrderRunEnd(s, i))
    ensures OrderAt(s, i) ==> forall e, m | OrderShape(s, i, e, m) :: e == OrderRunStart(s, i) && m <= OrderRunEnd(s, i)
  {
    if OrderAt(s, i) {
      assert OrderShape(s, i, OrderRunStart(s, i), OrderRunEnd(s, i));
    }
    forall e, m | OrderShape(s, i, e, m)
      ensures OrderAt(s, i) && e == OrderRunStart(s, i) && m <= OrderRunEnd(s, i)
    {
      assert IsOrderChar(s[e]);
      RunEndUnique(s, i + |OrderTag|, e, IsSpace);
      RunWithin(s, e, m, IsOrderChar);
    }
  }

  /** The greedy test as a predicate on positions of s. */
  function OrderAtIn(s: string): nat -> bool {
    (i: nat) => OrderAt(s, i)
  }

  /** The text captured by the leftmost match of `BootOrder:\s*([\d,]+)`. */
  function OrderRun(s: string): (r: Option<string>)
    ensures r.Some? ==> |r.value| > 0 && AllIn(r.value, 0, |r.value|, IsOrderChar)
  {
    var at := OrderAtIn(s);
    var i := FirstWhere(at, 0, |s|);
    if i == |s| then None
    else
      assert at(i);
      var e, m := OrderRunStart(s, i), OrderRunEnd(s, i);
      AllInSlice(s, e, m, IsOrderChar);
      Some(s[e..m])
  }

  /** OrderRun reports the leftmost, longest capture, or nothing when the
      pattern matches nowhere in the line. */
  lemma OrderRunIsLeftmostMatch(s: string)
    ensures OrderRun(s).None? <==> forall i, e, m :: !OrderShape(s, i, e, m)
    ensures OrderRun(s).Some? ==>
              exists i, e, m :: OrderShape(s, i, e, m) && OrderRun(s).value == s[e..m]
                                && (forall j, e', m' | j < i :: !OrderShape(s, j, e', m'))
                                && (forall e', m' | OrderShape(s, i, e', m') :: e' == e && m' <= m)
  {
    var at := OrderAtIn(s);
    var i := FirstWhere(at, 0, |s|);
    forall j: int, e', m' | j < i
      ensures !OrderShape(s, j, e', m')
    {
      if 0 <= j {
        assert !at(j);
        OrderAtIsRegexMatch(s, j);
      }
    }
    if i < |s| {
      assert at(i);
      OrderAtIsRegexMatch(s, i);
    } else {
      forall j: int, e', m' | OrderShape(s, j, e', m')
        ensures j < i
      {
      }
    }
  }

  /** `s => s.trim()` over every piece. */
  function TrimEach(parts: seq<string>): seq<string> {
    seq(|parts|, k requires 0 <= k < |parts| => Trim(parts[k]))
  }

  /** Lines 76-78: the captured run split on commas, each piece trimmed.
      The pieces are digit strings (possibly empty), there is one more of
      them than there are commas in the run, and joining them with commas
      gives the run back: trimming never changes a digit string. */
  function MatchOrder(s: string): (r: Option<seq<string>>)
    ensures r.Some? <==> OrderRun(s).Some?
    ensures r.Some? ==> |r.value| == multiset(OrderRun(s).value)[','] + 1
    ensures r.Some? ==> Join(r.value, ',') == OrderRun(s).value
    ensures r.Some? ==> forall k | 0 <= k < |r.value| :: AllDigits(r.value[k])
  {
    match OrderRun(s)
    case None => None
    case Some(run) =>
      SplitCount(run, ',');
      SplitJoin(run, ',');
      OrderPiecesAreDigits(run);
      Some(TrimEach(Split(run, ',')))
  }

  /** The comma-separated pieces of a [\d,]+ run are digit strings, which
      trimming leaves alone. */
  lemma OrderPiecesAreDigits(run: string)
    requires AllIn(run, 0, |run|, IsOrderChar)
    ensures TrimEach(Split(run, ',')) == Split(run, ',')
    ensures forall k | 0 <= k < |Split(run, ',')| :: AllDigits(Split(run, ',')[k])
  {
    var pieces := Split(run, ',');
    SplitPiecesWithin(run, ',', IsOrderChar);
    forall k | 0 <= k < |pieces|
      ensures AllDigits(pieces[k]) && Trim(pieces[k]) == pieces[k]
    {
      DigitPiece(pieces[k]);
    }
    assert TrimEach(pieces) == pieces;
  }

  lemma DigitPiece(p: string)
    requires AllIn(p, 0, |p|, IsOrderChar) && ',' !in p
    ensures AllDigits(p) && Trim(p) == p
  {
    forall j | 0 <= j < |p|
      ensures IsDigit(p[j])
    {
      assert p[j] in p;
    }
  }

  // ---------------------------------------------------------------------
  // Boot(\d{4})(\*?)\s+(.+)
  // ---------------------------------------------------------------------

  /** One way `Boot(\d{4})(\*?)\s+(.+)` can match at i: "Boot", four digits,
      an optional '*' (taken when star holds), whitespace on [a, p) with a
      the position after the optional '*', then line characters on [p, m).
      The captures are the digits, the '*' and s[p..m]. */
  ghost predicate EntryShape(s: string, i: int, star: bool, p: int, m: int) {
    && OccursAt(s, EntryTag, i) && AllIn(s, i + 4, i + 8, IsDigit)
    && (star ==> i + 8 < |s| && s[i + 8] == '*')
    && var a := if star then i + 9 else i + 8;
       a < p < m && AllIn(s, a, p, IsSpace) && AllIn(s, p, m, IsLineChar)
  }

  /** `(\*?)` is greedy: it takes a '*' right after the digits when there is one. */
  predicate HasStar(s: string, i: nat) {
    i + 8 < |s| && s[i + 8] == '*'
  }

  /** Where `\s+` starts. */
  function StarEnd(s: string, i: nat): nat {
    if HasStar(s, i) then i + 9 else i + 8
  }

  /** The test `.` applies at a position of s. */
  function LineCharAt(s: string): nat -> bool {
    (j: nat) => j < |s| && IsLineChar(s[j])
  }

  /** Where `(.+)` starts when the pattern is tried at i, or None when it
      cannot match there. `\s+` first takes the whole whitespace run
      [a, e); when the run reaches the end of the line it gives characters
      back until `.` can match, that is until it stops on whitespace that
      is not a line terminator. So the start is the greatest p in (a, e]
      with p < |s| and s[p] a line character. */
  function LabelStart(s: string, i: nat): (r: Option<nat>)
    ensures r.Some? ==> StarEnd(s, i) < r.value < |s| && IsLineChar(s[r.value])
  {
    var a := StarEnd(s, i);
    if a > |s| then None
    else
      var e := RunEnd(s, a, IsSpace);
      var hi := if e < |s| then e + 1 else e;
      if hi < a + 1 then None
      else
        var p := LastWhere(LineCharAt(s), a + 1, hi);
        if p == hi then None else Some(p)
  }

  /** The greedy test at i. */
  predicate EntryAt(s: string, i: nat) {
    OccursAt(s, EntryTag, i) && AllIn(s, i + 4, i + 8, IsDigit) && LabelStart(s, i).Some?
  }

  /** Where `(.+)` ends: it takes every line character up to the first line
      terminator or the end of the line. */
  function LabelEnd(s: string, i: nat): nat
    requires EntryAt(s, i)
  {
    RunEnd(s, LabelStart(s, i).value, IsLineChar)
  }

  /** What the greedy test reports at i is a way for the pattern to match. */
  lemma EntryAtGivesShape(s: string, i: nat)
    requires EntryAt(s, i)
    ensures EntryShape(s, i, HasStar(s, i), LabelStart(s, i).value, LabelEnd(s, i))
  {
    var isLine := LineCharAt(s);
    var a := StarEnd(s, i);
    var e := RunEnd(s, a, IsSpace);
    var hi := if e < |s| then e + 1 else e;
    var p := LabelStart(s, i).value;
    assert p == LastWhere(isLine, a + 1, hi);
    assert isLine(p);
    assert AllIn(s, a, p, IsSpace);
    assert RunEnd(s, p, IsLineChar) > p;
  }

  /** Every way for the pattern to match at i is found by the greedy test
      and is no greater than what it reports. */
  lemma ShapeBelowEntryAt(s: string, i: nat, star: bool, p: int, m: int)
    requires EntryShape(s, i, star, p, m)
    ensures EntryAt(s, i) && star == HasStar(s, i) && p <= LabelStart(s, i).value
            && (p == LabelStart(s, i).value ==> m <= LabelEnd(s, i))
  {
    ShapeTakesStar(s, i, star, p, m);
    var a := StarEnd(s, i);
    var e := RunEnd(s, a, IsSpace);
    RunWithin(s, a, p, IsSpace);
    var hi := if e < |s| then e + 1 else e;
    assert LineCharAt(s)(p);
    var q := LastWhere(LineCharAt(s), a + 1, hi);
    assert q < hi && p <= q;
    assert LabelStart(s, i) == Some(q);
    if p == q {
      RunWithin(s, p, m, IsLineChar);
    }
  }

  /** A match takes the '*' exactly when one follows the digits: without it
      the next character must be whitespace. */
  lemma ShapeTakesStar(s: string, i: nat, star: bool, p: int, m: int)
    requires EntryShape(s, i, star, p, m)
    ensures star == HasStar(s, i)
  {
    if !star {
      assert IsSpace(s[i + 8]);
    }
  }

  /** The greedy test matches exactly when the pattern can match, and the
      match it reports is the one the backtracking engine prefers: the '*'
      is taken when possible, then the longest `\s+`, then the longest
      `(.+)`. Every other way to match at i is lexicographically smaller. */
  lemma EntryAtIsRegexMatch(s: string, i: nat)
    ensures EntryAt(s, i) <==> exists star, p, m :: EntryShape(s, i, star, p, m)
    ensures EntryAt(s, i) ==> EntryShape(s, i, HasStar(s, i), LabelStart(s, i).value, LabelEnd(s, i))
    ensures EntryAt(s, i) ==>
              forall star, p, m | EntryShape(s, i, star, p, m) ::
                star == HasStar(s, i) && p <= LabelStart(s, i).value
                && (p == LabelStart(s, i).value ==> m <= LabelEnd(s, i))
  {
    if EntryAt(s, i) {
      EntryAtGivesShape(s, i);
    }
    forall star, p, m | EntryShape(s, i, star, p, m)
      ensures EntryAt(s, i) && star == HasStar(s, i) && p <= LabelStart(s, i).value
              && (p == LabelStart(s, i).value ==> m <= LabelEnd(s, i))
    {
      ShapeBelowEntryAt(s, i, star, p, m);
    }
  }

  /** What the parser promises of every entry it builds: `id` and `number`
      are the same four digits and the label is a display name, which the
      normaliser leaves unchanged. */
  ghost predicate WellFormedEntry(e: BootEntry) {
    e.id == e.number && IsBootNumber(e.number) && IsDisplayName(e.name)
  }

  /** The entry built from a match at i: lines 84-93. */
  function EntryOfMatch(s: string, i: nat): (r: BootEntry)
    requires EntryAt(s, i)
    ensures WellFormedEntry(r)
  {
    EntryAtGivesShape(s, i);
    AllInSlice(s, i + 4, i + 8, IsDigit);
    var number := s[i + 4..i + 8];
    var raw := Trim(s[LabelStart(s, i).value..LabelEnd(s, i)]);
    BootEntry(number, number, ExtractOSName(raw), HasStar(s, i))
  }

  /** Where the leftmost match of the entry pattern starts, or |s|. */
  function EntryIndex(s: string): (i: nat)
    ensures i <= |s|
    ensures i < |s| ==> EntryAt(s, i)
    ensures forall j | 0 <= j < i :: !EntryAt(s, j)
  {
    var at := (i: nat) => EntryAt(s, i);
    var i := FirstWhere(at, 0, |s|);
    forall j | 0 <= j < i
      ensures !EntryAt(s, j)
    {
      assert !at(j);
    }
    i
  }

  /** Lines 82-94: the entry a line describes, built from the leftmost match. */
  function MatchEntry(s: string): (r: Option<BootEntry>)
    ensures r.Some? ==> WellFormedEntry(r.value)
  {
    var i := EntryIndex(s);
    if i == |s| then None else Some(EntryOfMatch(s, i))
  }

  /** No position before the leftmost match admits any way to match. */
  lemma NoEntryShapeBefore(s: string, j: int, star: bool, p: int, m: int)
    requires j < EntryIndex(s)
    ensures !EntryShape(s, j, star, p, m)
  {
    if 0 <= j {
      EntryAtIsRegexMatch(s, j);
    }
  }

  /** The pattern matches nowhere exactly when the scan finds no start. */
  lemma NoEntryShapeAtAll(s: string)
    ensures EntryIndex(s) == |s| <==> forall i, star, p, m :: !EntryShape(s, i, star, p, m)
  {
    var i := EntryIndex(s);
    if i == |s| {
      forall j: int, star, p, m
        ensures !EntryShape(s, j, star, p, m)
      {
        if j < i {
          NoEntryShapeBefore(s, j, star, p, m);
        }
      }
    } else {
      EntryAtIsRegexMatch(s, i);
      assert EntryShape(s, i, HasStar(s, i), LabelStart(s, i).value, LabelEnd(s, i));
    }
  }

  /** MatchEntry reports nothing exactly when the pattern matches nowhere in
      the line. Otherwise it reports the match at the leftmost position
      where one exists, with the captures the backtracking engine prefers:
      the '*' whenever it is there, then the longest `\s+`, then the longest
      `(.+)`; every other way to match there is lexicographically smaller. */
  lemma MatchEntryIsLeftmostMatch(s: string)
    ensures MatchEntry(s).None? <==> forall i, star, p, m :: !EntryShape(s, i, star, p, m)
    ensures MatchEntry(s).Some? ==>
              var i := EntryIndex(s);
              var p, m := LabelStart(s, i).value, LabelEnd(s, i);
              && EntryShape(s, i, MatchEntry(s).value.isActive, p, m)
              && (forall j, star', p', m' | j < i :: !EntryShape(s, j, star', p', m'))
              && (forall star', p', m' | EntryShape(s, i, star', p', m') ::
                    star' == MatchEntry(s).value.isActive && (p' < p || (p' == p && m' <= m)))
  {
    NoEntryShapeAtAll(s);
    var i := EntryIndex(s);
    if i < |s| {
      EntryAtIsRegexMatch(s, i);
      forall j: int, star', p', m' | j < i
        ensures !EntryShape(s, j, star', p', m')
      {
        NoEntryShapeBefore(s, j, star', p', m');
      }
    }
  }

  /** The fields of a matched entry: the number is the four digits after
      "Boot", the id repeats it, the entry is active exactly when '*' follows
      the digits, and the label is the normalised, trimmed `(.+)` capture. */
  lemma MatchEntryFields(s: string)
    ensures MatchEntry(s).Some? ==>
              var i := EntryIndex(s);
              var e := MatchEntry(s).value;
              && e.isActive == (i + 8 < |s| && s[i + 8] == '*')
              && e.number == s[i + 4..i + 8]
              && e.id == e.number
              && e.name == ExtractOSName(Trim(s[LabelStart(s, i).value..LabelEnd(s, i)]))
  {
    if MatchEntry(s).Some? {
      assert MatchEntry(s).value == EntryOfMatch(s, EntryIndex(s));
    }
  }

  // ---------------------------------------------------------------------
  // The loop over lines
  // ---------------------------------------------------------------------

  /** A later line's capture replaces an earlier one; no capture keeps it. */
  function Latest<T>(earlier: Option<T>, later: Option<T>): Option<T> {
    if later.Some? then later else earlier
  }

  function AsSeq<T>(o: Option<T>): seq<T> {
    if o.Some? then [o.value] else []
  }

  /** One pass of the loop body at lines 62-95: the four rules run
      independently on the same line. */
  function Step(info: BootInfo, line: string): BootInfo {
    BootInfo(
      Latest(info.bootCurrent, MatchHeader(line, CurrentTag)),
      Latest(info.bootNext, MatchHeader(line, NextTag)),
      if MatchOrder(line).Some? then MatchOrder(line).value else info.bootOrder,
      info.entries + AsSeq(MatchEntry(line)))
  }

  /** What every snapshot the parser returns satisfies. */
  ghost predicate WellFormed(info: BootInfo) {
    && (info.bootCurrent.Some? ==> IsBootNumber(info.bootCurrent.value))
    && (info.bootNext.Some? ==> IsBootNumber(info.bootNext.value))
    && (forall k | 0 <= k < |info.bootOrder| :: AllDigits(info.bootOrder[k]))
    && (forall k | 0 <= k < |info.entries| :: WellFormedEntry(info.entries[k]))
  }

  /** The loop at lines 62-95, from a given starting snapshot. */
  function ParseLines(info: BootInfo, lines: seq<string>): BootInfo
    decreases |lines|
  {
    if |lines| == 0 then info
    else ParseLines(Step(info, lines[0]), lines[1..])
  }

  /** Reading lines keeps a snapshot well formed. */
  lemma {:induction false} ParseLinesKeepsWellFormed(info: BootInfo, lines: seq<string>)
    requires WellFormed(info)
    ensures WellFormed(ParseLines(info, lines))
    decreases |lines|
  {
    if |lines| > 0 {
      StepKeepsWellFormed(info, lines[0]);
      ParseLinesKeepsWellFormed(Step(info, lines[0]), lines[1..]);
    }
  }

  /** One line read keeps the snapshot well formed. */
  lemma StepKeepsWellFormed(info: BootInfo, line: string)
    ensures WellFormed(info) ==> WellFormed(Step(info, line))
  {
    if WellFormed(info) {
      StepKeepsEntriesWellFormed(info, line);
      StepKeepsHeadersWellFormed(info, line);
    }
  }

  lemma StepKeepsEntriesWellFormed(info: BootInfo, line: string)
    requires WellFormed(info)
    ensures forall k | 0 <= k < |Step(info, line).entries| :: WellFormedEntry(Step(info, line).entries[k])
  {
    AppendKeepsWellFormed(info.entries, AsSeq(MatchEntry(line)));
  }

  lemma AppendKeepsWellFormed(entries: seq<BootEntry>, more: seq<BootEntry>)
    requires forall k | 0 <= k < |entries| :: WellFormedEntry(entries[k])
    requires forall k | 0 <= k < |more| :: WellFormedEntry(more[k])
    ensures forall k | 0 <= k < |entries + more| :: WellFormedEntry((entries + more)[k])
  {
    forall k | 0 <= k < |entries + more|
      ensures WellFormedEntry((entries + more)[k])
    {
      if k < |entries| {
        assert (entries + more)[k] == entries[k];
      } else {
        assert (entries + more)[k] == more[k - |entries|];
      }
    }
  }

  lemma StepKeepsHeadersWellFormed(info: BootInfo, line: string)
    requires WellFormed(info)
    ensures forall k | 0 <= k < |Step(info, line).bootOrder| :: AllDigits(Step(info, line).bootOrder[k])
    ensures Step(info, line).bootCurrent.Some? ==> IsBootNumber(Step(info, line).bootCurrent.value)
    ensures Step(info, line).bootNext.Some? ==> IsBootNumber(Step(info, line).bootNext.value)
  {
  }

  /** `parseBootOutput`. It is total: every string parses, and a text in
      which nothing matches gives the empty snapshot. The `catch` branch
      (lines 98-101) cannot be reached for string input. */
  function ParseBootOutput(output: string): BootInfo {
    ParseLines(EmptyInfo, Split(output, '\n'))
  }

  /** Every snapshot the parser returns is well formed: headers are four
      digits, order ids are digits only, entries are well formed. */
  lemma ParseBootOutputWellFormed(output: string)
    ensures WellFormed(ParseBootOutput(output))
  {
    ParseLinesKeepsWellFormed(EmptyInfo, Split(output, '\n'));
  }

  /** Reading a + b is reading a, then b. */
  lemma {:induction false} ParseLinesAppend(info: BootInfo, a: seq<string>, b: seq<string>)
    ensures ParseLines(info, a + b) == ParseLines(ParseLines(info, a), b)
    decreases |a|
  {
    if |a| == 0 {
      assert a + b == b;
    } else {
      assert (a + b)[1..] == a[1..] + b;
      ParseLinesAppend(Step(info, a[0]), a[1..], b);
    }
  }

  /** The last line is read last. */
  lemma ParseLinesLast(info: BootInfo, lines: seq<string>)
    requires |lines| > 0
    ensures ParseLines(info, lines) == Step(ParseLines(info, lines[..|lines| - 1]), lines[|lines| - 1])
  {
    var init, last := lines[..|lines| - 1], lines[|lines| - 1];
    assert lines == init + [last];
    ParseLinesAppend(info, init, [last]);
  }

  /** Reference: the entries the lines describe, one per matching line, in line order. */
  function LineEntries(lines: seq<string>): seq<BootEntry>
    decreases |lines|
  {
    if |lines| == 0 then []
    else LineEntries(lines[..|lines| - 1]) + AsSeq(MatchEntry(lines[|lines| - 1]))
  }

  /** Reference: the capture on the last line where `tag\s*(\d{4})` matches. */
  function LastHeader(lines: seq<string>, tag: string): Option<string>
    decreases |lines|
  {
    if |lines| == 0 then None
    else if MatchHeader(lines[|lines| - 1], tag).Some? then MatchHeader(lines[|lines| - 1], tag)
    else LastHeader(lines[..|lines| - 1], tag)
  }

  /** Reference: the order on the last line where `BootOrder:` matches.
      A matched order is never empty. */
  function LastOrder(lines: seq<string>): (r: Option<seq<string>>)
    ensures r.Some? ==> |r.value| >= 1
    decreases |lines|
  {
    if |lines| == 0 then None
    else if MatchOrder(lines[|lines| - 1]).Some? then MatchOrder(lines[|lines| - 1])
    else LastOrder(lines[..|lines| - 1])
  }

  /** The line-by-line reading of lines on top of a snapshot. */
  function ReadLines(info: BootInfo, lines: seq<string>): BootInfo {
    BootInfo(
      Latest(info.bootCurrent, LastHeader(lines, CurrentTag)),
      Latest(info.bootNext, LastHeader(lines, NextTag)),
      if LastOrder(lines).Some? then LastOrder(lines).value else info.bootOrder,
      info.entries + LineEntries(lines))
  }

  /** The loop appends one entry per matching line, in line order, and for
      each header keeps the capture of the last line that has one. */
  lemma {:induction false} ParseLinesReadsEveryLine(info: BootInfo, lines: seq<string>)
    ensures ParseLines(info, lines) == ReadLines(info, lines)
    decreases |lines|
  {
    if |lines| > 0 {
      var init := lines[..|lines| - 1];
      ParseLinesLast(info, lines);
      ParseLinesReadsEveryLine(info, init);
      ReadLinesLast(info, lines);
    }
  }

  /** Reading one more line is one more step. */
  lemma ReadLinesLast(info: BootInfo, lines: seq<string>)
    requires |lines| > 0
    ensures ReadLines(info, lines) == Step(ReadLines(info, lines[..|lines| - 1]), lines[|lines| - 1])
  {
    var init, last := lines[..|lines| - 1], lines[|lines| - 1];
    LastHeaderLast(info.bootCurrent, lines, CurrentTag);
    LastHeaderLast(info.bootNext, lines, NextTag);
    LineEntriesLast(info.entries, lines);
  }

  /** The last line's header capture wins over the earlier lines'. */
  lemma LastHeaderLast(earlier: Option<string>, lines: seq<string>, tag: string)
    requires |lines| > 0
    ensures Latest(earlier, LastHeader(lines, tag))
         == Latest(Latest(earlier, LastHeader(lines[..|lines| - 1], tag)), MatchHeader(lines[|lines| - 1], tag))
  {
  }

  /** The last line's entry comes after the earlier lines' entries. */
  lemma LineEntriesLast(entries: seq<BootEntry>, lines: seq<string>)
    requires |lines| > 0
    ensures entries + LineEntries(lines)
         == (entries + LineEntries(lines[..|lines| - 1])) + AsSeq(MatchEntry(lines[|lines| - 1]))
  {
    var init := lines[..|lines| - 1];
    var last := AsSeq(MatchEntry(lines[|lines| - 1]));
    assert LineEntries(lines) == LineEntries(init) + last;
    Seqs.AppendAssoc(entries, LineEntries(init), last);
  }

  /** The whole parse, stated line by line: the entries of the matching lines
      in order, and for BootCurrent, BootNext and BootOrder the last line
      that sets them; a header no line sets stays null (or, for the order,
      empty). */
  lemma ParseBootOutputByLines(output: string)
    ensures var lines := Split(output, '\n');
            ParseBootOutput(output) ==
              BootInfo(LastHeader(lines, CurrentTag), LastHeader(lines, NextTag),
                       if LastOrder(lines).Some? then LastOrder(lines).value else [],
                       LineEntries(lines))
  {
    ParseLinesReadsEveryLine(EmptyInfo, Split(output, '\n'));
  }

  /** The snapshot of a text read after another: later headers win, entries
      accumulate. A parsed order is empty only when no line set it. */
  function Merge(a: BootInfo, b: BootInfo): BootInfo {
    BootInfo(
      Latest(a.bootCurrent, b.bootCurrent),
      Latest(a.bootNext, b.bootNext),
      if |b.bootOrder| > 0 then b.bootOrder else a.bootOrder,
      a.entries + b.entries)
  }

  /** Reading lines on top of a snapshot is merging that snapshot with the
      lines read from scratch. */
  lemma ParseLinesFrom(info: BootInfo, lines: seq<string>)
    ensures ParseLines(info, lines) == Merge(info, ParseLines(EmptyInfo, lines))
  {
    ParseLinesReadsEveryLine(info, lines);
    ParseLinesReadsEveryLine(EmptyInfo, lines);
    MergeReadLines(info, lines);
  }

  lemma MergeReadLines(info: BootInfo, lines: seq<string>)
    ensures ReadLines(info, lines) == Merge(info, ReadLines(EmptyInfo, lines))
  {
    assert EmptyInfo.entries + LineEntries(lines) == LineEntries(lines);
  }

  /** Parsing is compositional over line breaks: the snapshot of
      t1 + LF + t2 is the snapshot of t1 merged with that of t2. */
  lemma ParseConcat(t1: string, t2: string)
    ensures ParseBootOutput(t1 + "\n" + t2) == Merge(ParseBootOutput(t1), ParseBootOutput(t2))
  {
    SplitConcat(t1, t2, '\n');
    ParseLinesAppend(EmptyInfo, Split(t1, '\n'), Split(t2, '\n'));
    ParseLinesFrom(ParseBootOutput(t1), Split(t2, '\n'));
  }

  /** None of the four patterns matches the line. */
  predicate Unmatched(line: string) {
    && MatchHeader(line, CurrentTag).None? && MatchHeader(line, NextTag).None?
    && MatchOrder(line).None? && MatchEntry(line).None?
  }

  /** Lines that match nothing are not an error: they leave the snapshot as it was. */
  lemma {:induction false} UnmatchedLinesChangeNothing(info: BootInfo, lines: seq<string>)
    requires forall k | 0 <= k < |lines| :: Unmatched(lines[k])
    ensures ParseLines(info, lines) == info
    decreases |lines|
  {
    if |lines| > 0 {
      assert Step(info, lines[0]) == info;
      UnmatchedLinesChangeNothing(info, lines[1..]);
    }
  }

  /** Text in which no line matches parses to the empty snapshot (no
      current, no next, empty order, no entries), not to a failure. */
  lemma NothingMatchedGivesEmptySnapshot(output: string)
    requires forall k | 0 <= k < |Split(output, '\n')| :: Unmatched(Split(output, '\n')[k])
    ensures ParseBootOutput(output) == EmptyInfo
  {
    UnmatchedLinesChangeNothing(EmptyInfo, Split(output, '\n'));
  }

  // ---------------------------------------------------------------------
  // The BootOrder line round trip
  // ---------------------------------------------------------------------

  /** The header line `efibootmgr` prints for a boot order. */
  function OrderLine(ids: seq<string>): string {
    "BootOrder: " + Join(ids, ',')
  }

  /** In an order line 'B' occurs only at the start, followed by "ootOrder". */
  lemma OrderLineShape(ids: seq<string>)
    requires |ids| >= 1
    requires forall k | 0 <= k < |ids| :: |ids[k]| > 0 && AllDigits(ids[k])
    ensures var line := OrderLine(ids);
            && AllIn(line, 11, |line|, IsOrderChar) && 11 < |line| && IsDigit(line[11])
            && line[11..] == Join(ids, ',')
            && (forall j | 0 < j < |line| :: line[j] != 'B') && line[4] == 'O'
            && '\n' !in line
  {
    var body := Join(ids, ',');
    var line := OrderLine(ids);
    OrderBodyShape(ids);
    assert forall j | 11 <= j < |line| :: line[j] == body[j - 11];
    assert forall j | 0 <= j < |line| :: line[j] != '\n' by {
      forall j | 0 <= j < |line|
        ensures line[j] != '\n'
      {
        if j >= 11 {
          assert IsOrderChar(body[j - 11]);
        }
      }
    }
  }

  /** The ids joined by commas: digits and commas only, starting with a digit. */
  lemma OrderBodyShape(ids: seq<string>)
    requires |ids| >= 1
    requires forall k | 0 <= k < |ids| :: |ids[k]| > 0 && AllDigits(ids[k])
    ensures var body := Join(ids, ',');
            0 < |body| && IsDigit(body[0]) && AllIn(body, 0, |body|, IsOrderChar)
  {
    var body := Join(ids, ',');
    forall k | 0 <= k < |ids|
      ensures AllIn(ids[k], 0, |ids[k]|, IsOrderChar)
    {
      assert AllDigits(ids[k]);
    }
    JoinWithin(ids, ',', IsOrderChar);
    assert body[0] == ids[0][0] by {
      if |ids| > 1 {
        assert body == ids[0] + ([','] + Join(ids[1..], ','));
      }
    }
  }

  /** A tag starting with 'B' and differing from the line at index 4 cannot
      occur in a line whose only 'B' is its first character. */
  lemma NoTagAt(line: string, tag: string, i: int)
    requires |tag| > 4 && tag[0] == 'B' && |line| > 4 && tag[4] != line[4]
    requires forall j | 0 < j < |line| :: line[j] != 'B'
    ensures !OccursAt(line, tag, i)
  {
    if 0 <= i <= |line| - |tag| {
      if i == 0 {
        assert line[i..i + |tag|][4] == line[4];
      } else {
        assert line[i..i + |tag|][0] == line[i];
      }
    }
  }

  /** The entry pattern needs a digit after "Boot", so a line whose only 'B'
      is followed by "ootO" holds no entry. */
  lemma NoEntryAt(line: string, i: int, star: bool, p: int, m: int)
    requires |line| > 4 && line[4] == 'O'
    requires forall j | 0 < j < |line| :: line[j] != 'B'
    ensures !EntryShape(line, i, star, p, m)
  {
    if 0 <= i <= |line| - 4 {
      if i == 0 {
        assert !IsDigit(line[4]);
      } else {
        assert line[i..i + 4][0] == line[i];
      }
    }
  }

  /** No header or entry pattern matches an order line. */
  lemma OrderLineHasNoOtherMatch(ids: seq<string>)
    requires |ids| >= 1
    requires forall k | 0 <= k < |ids| :: |ids[k]| > 0 && AllDigits(ids[k])
    ensures MatchHeader(OrderLine(ids), CurrentTag).None?
    ensures MatchHeader(OrderLine(ids), NextTag).None?
    ensures MatchEntry(OrderLine(ids)).None?
  {
    var line := OrderLine(ids);
    OrderLineShape(ids);
    forall i ensures !OccursAt(line, CurrentTag, i) {
      NoTagAt(line, CurrentTag, i);
    }
    forall i ensures !OccursAt(line, NextTag, i) {
      NoTagAt(line, NextTag, i);
    }
    forall i, star, p, m ensures !EntryShape(line, i, star, p, m) {
      NoEntryAt(line, i, star, p, m);
    }
    MatchHeaderIsLeftmostMatch(line, CurrentTag);
    MatchHeaderIsLeftmostMatch(line, NextTag);
    MatchEntryIsLeftmostMatch(line);
  }

  /** The order pattern captures everything after "BootOrder: ". */
  lemma OrderLineRun(ids: seq<string>)
    requires |ids| >= 1
    requires forall k | 0 <= k < |ids| :: |ids[k]| > 0 && AllDigits(ids[k])
    ensures OrderRun(OrderLine(ids)) == Some(Join(ids, ','))
  {
    var line := OrderLine(ids);
    OrderLineShape(ids);
    assert line[..10] == OrderTag;
    RunEndUnique(line, 10, 11, IsSpace);
    assert OrderAtIn(line)(0);
    assert FirstWhere(OrderAtIn(line), 0, |line|) == 0;
    RunEndUnique(line, 11, |line|, IsOrderChar);
    assert OrderRunStart(line, 0) == 11 && OrderRunEnd(line, 0) == |line|;
    assert OrderRun(line) == Some(line[11..|line|]);
    assert line[11..|line|] == line[11..];
  }

  /** The order pattern's capture of an order line splits back into its ids. */
  lemma MatchOrderOfOrderLine(ids: seq<string>)
    requires |ids| >= 1
    requires forall k | 0 <= k < |ids| :: |ids[k]| > 0 && AllDigits(ids[k])
    ensures MatchOrder(OrderLine(ids)) == Some(ids)
  {
    var body := Join(ids, ',');
    OrderLineRun(ids);
    OrderPiecesAreDigits(body);
    JoinSplit(ids, ',');
  }

  /** Text without a newline is one line. */
  lemma SplitOneLine(line: string)
    requires '\n' !in line
    ensures Split(line, '\n') == [line]
  {
    assert IndexOf(line, '\n') == |line|;
  }

  /** Output of one line is that line's step from the empty snapshot. */
  lemma ParseOneLine(line: string)
    requires '\n' !in line
    ensures ParseBootOutput(line) == Step(EmptyInfo, line)
  {
    SplitOneLine(line);
    assert ParseLines(EmptyInfo, [line]) == ParseLines(Step(EmptyInfo, line), []);
  }

  /** Printing a boot order and parsing it back gives the same order, and
      nothing else: no header is set and no entry is created. */
  lemma BootOrderRoundTrip(ids: seq<string>)
    requires |ids| >= 1
    requires forall k | 0 <= k < |ids| :: |ids[k]| > 0 && AllDigits(ids[k])
    ensures ParseBootOutput(OrderLine(ids)) == BootInfo(None, None, ids, [])
  {
    var line := OrderLine(ids);
    OrderLineShape(ids);
    ParseOneLine(line);
    OrderLineHasNoOtherMatch(ids);
    MatchOrderOfOrderLine(ids);
  }
}

=== FILE: reorder.dfy ===
/** Moving an entry one place in the shown list and the order that is then
    persisted (src/index.tsx lines 246-275). */
module Reorder {
  import opened Optional
  import opened Seqs
  import opened BootModel
  import opened WorkingOrder

  /** The list after a move, and the boot order handed to the backend; None
      when the move does nothing and nothing is saved. */
  datatype MoveResult = MoveResult(order: seq<BootEntry>, persist: Option<seq<string>>)

  /** The list with positions i and j exchanged. */
  function Swap(s: seq<BootEntry>, i: nat, j: nat): (r: seq<BootEntry>)
    requires i < |s| && j < |s|
    ensures |r| == |s| && r[i] == s[j] && r[j] == s[i]
    ensures forall k | 0 <= k < |s| && k != i && k != j :: r[k] == s[k]
    ensures multiset(r) == multiset(s)
  {
    s[i := s[j]][j := s[i]]
  }

  /** `saveBootOrder`'s argument: the shown list as boot numbers. */
  function SaveOrder(entries: seq<BootEntry>): seq<string> {
    Numbers(entries)
  }

  /** `handleMoveUp`: the first entry stays put and nothing is saved; any
      other changes places with the one above, and the new list is saved. */
  function MoveUp(order: seq<BootEntry>, index: nat): (r: MoveResult)
    requires index < |order|
    ensures index == 0 <==> r.persist.None?
    ensures index == 0 ==> r.order == order
    ensures index > 0 ==>
              && |r.order| == |order|
              && r.order[index - 1] == order[index] && r.order[index] == order[index - 1]
              && forall k | 0 <= k < |order| && k != index - 1 && k != index :: r.order[k] == order[k]
    ensures multiset(r.order) == multiset(order)
    ensures r.persist.Some? ==> r.persist.value == Numbers(r.order)
  {
    if index == 0 then MoveResult(order, None)
    else
      var moved := Swap(order, index - 1, index);
      MoveResult(moved, Some(SaveOrder(moved)))
  }

  /** `handleMoveDown`: the last entry stays put and nothing is saved; any
      other changes places with the one below, and the new list is saved. */
  function MoveDown(order: seq<BootEntry>, index: nat): (r: MoveResult)
    requires index < |order|
    ensures index == |order| - 1 <==> r.persist.None?
    ensures index == |order| - 1 ==> r.order == order
    ensures index < |order| - 1 ==>
              && |r.order| == |order|
              && r.order[index + 1] == order[index] && r.order[index] == order[index + 1]
              && forall k | 0 <= k < |order| && k != index && k != index + 1 :: r.order[k] == order[k]
    ensures multiset(r.order) == multiset(order)
    ensures r.persist.Some? ==> r.persist.value == Numbers(r.order)
  {
    if index == |order| - 1 then MoveResult(order, None)
    else
      var moved := Swap(order, index, index + 1);
      MoveResult(moved, Some(SaveOrder(moved)))
  }

  /** Moving an entry up is moving the entry above it down. */
  lemma MoveUpIsMoveDownAbove(order: seq<BootEntry>, index: nat)
    requires 0 < index < |order|
    ensures MoveUp(order, index) == MoveDown(order, index - 1)
  {
    assert MoveUp(order, index).order == MoveDown(order, index - 1).order;
  }

  /** Moving an entry down and then up again restores the list. */
  lemma MoveDownThenUpRestores(order: seq<BootEntry>, index: nat)
    requires index + 1 < |order|
    ensures MoveUp(MoveDown(order, index).order, index + 1).order == order
  {
    var back := MoveUp(MoveDown(order, index).order, index + 1).order;
    assert |back| == |order|;
    forall k | 0 <= k < |order|
      ensures back[k] == order[k]
    {
    }
  }

  /** Moving an entry up and then down again restores the list. */
  lemma MoveUpThenDownRestores(order: seq<BootEntry>, index: nat)
    requires 0 < index < |order|
    ensures MoveDown(MoveUp(order, index).order, index - 1).order == order
  {
    MoveUpIsMoveDownAbove(order, index);
    var back := MoveDown(MoveUp(order, index).order, index - 1).order;
    assert |back| == |order|;
    forall k | 0 <= k < |order|
      ensures back[k] == order[k]
    {
    }
  }

  /** Looking up the first recognized entry of each number of a list drawn
      from the recognized entries gives the list back, when numbers are
      unique. */
  lemma {:induction false} ListedOfNumbers(shown: seq<BootEntry>, rec: seq<BootEntry>)
    requires UniqueNumbers(rec)
    requires forall e | e in shown :: e in rec
    ensures Listed(Numbers(shown), rec) == shown
    decreases |shown|
  {
    if |shown| > 0 {
      var e := shown[0];
      assert e in shown;
      var i :| 0 <= i < |rec| && rec[i] == e;
      var k := FindNumber(rec, e.number);
      assert k <= i;
      assert rec[k] == e;
      var nums := Numbers(shown);
      assert nums[0] == e.number;
      assert nums[1..] == Numbers(shown[1..]);
      ListedOfNumbers(shown[1..], rec);
      assert Listed(nums, rec) == [e] + Listed(nums[1..], rec);
      assert shown == [e] + shown[1..];
    }
  }

  /** Saving the shown list and reading the configuration back shows the same
      list again, whenever that list is a permutation of the recognized
      entries and their numbers are unique. */
  lemma SavedOrderReloads(info: BootInfo, shown: seq<BootEntry>)
    requires UniqueNumbers(Recognized(info.entries))
    requires multiset(shown) == multiset(Recognized(info.entries))
    ensures DeriveWorkingOrder(info.(bootOrder := SaveOrder(shown))) == shown
  {
    var rec := Recognized(info.entries);
    var saved := SaveOrder(shown);
    forall e | e in shown
      ensures e in rec
    {
      assert e in multiset(shown);
    }
    ListedOfNumbers(shown, rec);
    forall e | e in rec
      ensures e in shown
    {
      assert e in multiset(rec);
    }
    NothingUnlisted(rec, shown);
    assert Listed(saved, rec) + Unlisted(rec, saved) == shown;
  }

  /** When every recognized entry is in the saved list, none is left over. */
  lemma NothingUnlisted(rec: seq<BootEntry>, shown: seq<BootEntry>)
    requires forall e | e in rec :: e in shown
    ensures Unlisted(rec, SaveOrder(shown)) == []
  {
    forall e | e in rec
      ensures e.number in SaveOrder(shown)
    {
      var j :| 0 <= j < |shown| && shown[j] == e;
      assert SaveOrder(shown)[j] == e.number;
    }
    FilterNone(rec, NotListedIn(SaveOrder(shown)));
  }

  /** A move followed by the save and the reload it triggers leaves the panel
      showing the moved list, for a list derived from a configuration with
      unique numbers and a BootOrder without repeats. */
  lemma MoveUpReloads(info: BootInfo, index: nat)
    requires UniqueNumbers(Recognized(info.entries))
    requires Distinct(info.bootOrder)
    requires index < |DeriveWorkingOrder(info)|
    ensures var r := MoveUp(DeriveWorkingOrder(info), index);
            r.persist.Some? ==> DeriveWorkingOrder(info.(bootOrder := r.persist.value)) == r.order
  {
    var r := MoveUp(DeriveWorkingOrder(info), index);
    WorkingOrderIsPermutation(info);
    SavedOrderReloads(info, r.order);
  }

  /** The same for moving down. */
  lemma MoveDownReloads(info: BootInfo, index: nat)
    requires UniqueNumbers(Recognized(info.entries))
    requires Distinct(info.bootOrder)
    requires index < |DeriveWorkingOrder(info)|
    ensures var r := MoveDown(DeriveWorkingOrder(info), index);
            r.persist.Some? ==> DeriveWorkingOrder(info.(bootOrder := r.persist.value)) == r.order
  {
    var r := MoveDown(DeriveWorkingOrder(info), index);
    WorkingOrderIsPermutation(info);
    SavedOrderReloads(info, r.order);
  }

  /** The saved order names recognized entries only: BootOrder positions of
      every other firmware entry are dropped by a move. */
  lemma SavedOrderHasOnlyRecognized(info: BootInfo, index: nat, up: bool)
    requires index < |DeriveWorkingOrder(info)|
    ensures var shown := DeriveWorkingOrder(info);
            var r := if up then MoveUp(shown, index) else MoveDown(shown, index);
            r.persist.Some? ==>
              forall id | id in r.persist.value :: id in Numbers(Recognized(info.entries))
  {
    var shown := DeriveWorkingOrder(info);
    var r := if up then MoveUp(shown, index) else MoveDown(shown, index);
    if r.persist.Some? {
      PermutedNumbers(r.order, shown);
      ShownNumbersRecognized(info);
    }
  }

  /** Reordering a list keeps its set of numbers. */
  lemma PermutedNumbers(a: seq<BootEntry>, b: seq<BootEntry>)
    requires multiset(a) == multiset(b)
    ensures forall id | id in Numbers(a) :: id in Numbers(b)
  {
    forall id | id in Numbers(a)
      ensures id in Numbers(b)
    {
      var k :| 0 <= k < |a| && Numbers(a)[k] == id;
      assert a[k] in multiset(b);
      var j :| 0 <= j < |b| && b[j] == a[k];
      assert Numbers(b)[j] == id;
    }
  }

  /** Every number the panel shows belongs to a recognized entry. */
  lemma ShownNumbersRecognized(info: BootInfo)
    ensures forall id | id in Numbers(DeriveWorkingOrder(info)) ::
              id in Numbers(Recognized(info.entries))
  {
    var shown := DeriveWorkingOrder(info);
    var rec := Recognized(info.entries);
    forall id | id in Numbers(shown)
      ensures id in Numbers(rec)
    {
      var k :| 0 <= k < |shown| && Numbers(shown)[k] == id;
      assert shown[k] in shown;
      assert shown[k] in rec;
      var j :| 0 <= j < |rec| && rec[j] == shown[k];
      assert Numbers(rec)[j] == id;
    }
  }
}

=== FILE: scan.dfy ===
/** Search primitives shared by the label normaliser and the line parser:
    the leftmost and rightmost position satisfying a test, and the end of a
    run of characters drawn from one class. A regular expression without the
    `g` flag reports its leftmost match, which is `FirstWhere` over the
    positions of the subject string. */
module Scan {

  /** Every character of s[lo..hi] belongs to the class. */
  predicate AllIn(s: string, lo: int, hi: int, cls: char -> bool) {
    0 <= lo <= hi <= |s| && forall k | lo <= k < hi :: cls(s[k])
  }

  /** The least position in [lo, hi) satisfying p, or hi when there is none. */
  function FirstWhere(p: nat -> bool, lo: nat, hi: nat): (r: nat)
    requires lo <= hi
    ensures lo <= r <= hi
    ensures r < hi ==> p(r)
    ensures forall k | lo <= k < r :: !p(k)
    decreases hi - lo
  {
    if lo == hi then hi
    else if p(lo) then lo
    else FirstWhere(p, lo + 1, hi)
  }

  /** The greatest position in [lo, hi) satisfying p, or hi when there is none. */
  function LastWhere(p: nat -> bool, lo: nat, hi: nat): (r: nat)
    requires lo <= hi
    ensures lo <= r <= hi
    ensures r < hi ==> p(r) && forall k | r < k < hi :: !p(k)
    ensures r == hi ==> forall k | lo <= k < hi :: !p(k)
    decreases hi - lo
  {
    if lo == hi then hi
    else if p(hi - 1) then hi - 1
    else
      var r := LastWhere(p, lo, hi - 1);
      if r == hi - 1 then hi else r
  }

  /** The end of the longest run of class characters starting at i: what a
      greedy quantifier over a character class consumes. */
  function RunEnd(s: string, i: nat, cls: char -> bool): (e: nat)
    requires i <= |s|
    ensures i <= e <= |s|
    ensures AllIn(s, i, e, cls)
    ensures e < |s| ==> !cls(s[e])
    decreases |s| - i
  {
    if i < |s| && cls(s[i]) then RunEnd(s, i + 1, cls) else i
  }

  /** Any run of class characters from i stops at or before the greedy end. */
  lemma RunWithin(s: string, i: nat, j: int, cls: char -> bool)
    requires i <= |s| && AllIn(s, i, j, cls)
    ensures j <= RunEnd(s, i, cls)
  {
  }

  /** A run that is followed by a non-class character (or the end) is the greedy run. */
  lemma RunEndUnique(s: string, i: nat, e: nat, cls: char -> bool)
    requires i <= e <= |s| && AllIn(s, i, e, cls) && (e < |s| ==> !cls(s[e]))
    ensures e == RunEnd(s, i, cls)
  {
    RunWithin(s, i, e, cls);
  }

  /** A run of class characters stays one when cut out as a string of its own. */
  lemma AllInSlice(s: string, lo: int, hi: int, cls: char -> bool)
    requires AllIn(s, lo, hi, cls)
    ensures AllIn(s[lo..hi], 0, hi - lo, cls)
  {
    forall k | 0 <= k < hi - lo
      ensures cls(s[lo..hi][k])
    {
      assert s[lo..hi][k] == s[lo + k];
    }
  }
}

=== FILE: seqs.dfy ===
/** `Array.prototype.filter` and the multiset facts the orderings rely on. */
module Seqs {

  /** The elements of `s` that satisfy `p`, in their original order. */
  function Filter<T(!new)>(s: seq<T>, p: T -> bool): (r: seq<T>)
    ensures |r| <= |s|
    ensures forall x :: x in r <==> x in s && p(x)
  {
    if |s| == 0 then []
    else
      (if p(s[0]) then [s[0]] else []) + Filter(s[1..], p)
  }

  /** Filtering commutes with concatenation, so it keeps relative order. */
  lemma {:induction false} FilterAppend<T(!new)>(a: seq<T>, b: seq<T>, p: T -> bool)
    ensures Filter(a + b, p) == Filter(a, p) + Filter(b, p)
    decreases |a|
  {
    if |a| == 0 {
      assert a + b == b;
    } else {
      var head := if p(a[0]) then [a[0]] else [];
      var ab := a + b;
      assert ab[0] == a[0];
      assert ab[1..] == a[1..] + b;
      assert Filter(ab, p) == head + Filter(a[1..] + b, p);
      FilterAppend(a[1..], b, p);
      assert Filter(a, p) == head + Filter(a[1..], p);
      AppendAssoc(head, Filter(a[1..], p), Filter(b, p));
    }
  }

  /** Nothing passes a test no element meets. */
  lemma {:induction false} FilterNone<T(!new)>(s: seq<T>, p: T -> bool)
    requires forall x | x in s :: !p(x)
    ensures Filter(s, p) == []
    decreases |s|
  {
    if |s| > 0 {
      assert s[0] in s;
      assert forall x | x in s[1..] :: x in s;
      FilterNone(s[1..], p);
    }
  }

  /** Filtering keeps every copy of a value that satisfies `p` and drops
      every copy of one that does not. */
  lemma {:induction false} FilterCount<T(!new)>(s: seq<T>, p: T -> bool, x: T)
    ensures multiset(Filter(s, p))[x] == if p(x) then multiset(s)[x] else 0
    decreases |s|
  {
    if |s| > 0 {
      assert s == [s[0]] + s[1..];
      FilterCount(s[1..], p, x);
    }
  }

  /** Concatenation is associative. */
  lemma AppendAssoc<T>(a: seq<T>, b: seq<T>, c: seq<T>)
    ensures a + (b + c) == (a + b) + c
  {
  }

  /** No value occurs twice. */
  predicate Distinct<T(==)>(s: seq<T>) {
    forall i, j | 0 <= i < j < |s| :: s[i] != s[j]
  }

  /** Filtering keeps a sequence free of repeats. */
  lemma {:induction false} FilterKeepsDistinct<T(!new)>(s: seq<T>, p: T -> bool)
    requires Distinct(s)
    ensures Distinct(Filter(s, p))
    decreases |s|
  {
    if |s| > 0 {
      assert Distinct(s[1..]);
      FilterKeepsDistinct(s[1..], p);
      assert s[0] !in Filter(s[1..], p);
    }
  }

  /** In a sequence without repeats every value occurs once or not at all. */
  lemma {:induction false} DistinctCount<T>(s: seq<T>, x: T)
    requires Distinct(s)
    ensures multiset(s)[x] == if x in s then 1 else 0
    decreases |s|
  {
    if |s| > 0 {
      assert s == [s[0]] + s[1..];
      assert Distinct(s[1..]);
      DistinctCount(s[1..], x);
      if x == s[0] {
        assert x !in s[1..];
      }
    }
  }

  /** Two sequences without repeats holding the same values are permutations
      of each other. */
  lemma SameElementsPermutation<T>(s: seq<T>, t: seq<T>)
    requires Distinct(s) && Distinct(t)
    requires forall x :: x in s <==> x in t
    ensures multiset(s) == multiset(t)
  {
    forall x
      ensures multiset(s)[x] == multiset(t)[x]
    {
      DistinctCount(s, x);
      DistinctCount(t, x);
    }
  }

  /** A test and its negation split a sequence's length between them. */
  lemma {:induction false} FilterPartition<T(!new)>(s: seq<T>, p: T -> bool, q: T -> bool)
    requires forall x :: q(x) == !p(x)
    ensures |Filter(s, p)| + |Filter(s, q)| == |s|
    decreases |s|
  {
    if |s| > 0 {
      FilterPartition(s[1..], p, q);
    }
  }

  /** A sequence without repeats whose values all occur in t is no longer than t. */
  lemma DistinctWithin<T>(s: seq<T>, t: seq<T>)
    requires Distinct(s)
    requires forall x | x in s :: x in t
    ensures |s| <= |t|
  {
    forall x
      ensures multiset(s)[x] <= multiset(t)[x]
    {
      DistinctCount(s, x);
      if x in s {
        assert x in multiset(t);
      }
    }
    assert multiset(s) <= multiset(t);
    assert multiset(t) == multiset(s) + (multiset(t) - multiset(s));
  }
}

=== FILE: status.dfy ===
/** The names the panel shows for the current and the next boot
    (src/index.tsx lines 309-324). */
module Status {
  import opened Optional
  import opened BootModel
  import opened Label
  import opened Parser

  /** What the status rows show: the translated "unknown" or "follow boot
      order" text, or an entry's name. */
  datatype StatusName = Unknown | FollowBootOrder | Named(text: string)

  /** `getEntryName`: "unknown" for a missing or empty number (JavaScript
      falsiness); else the label of the first entry with that number; else
      "Boot" followed by the number. Without a snapshot no entry is found. */
  function EntryName(info: Option<BootInfo>, bootNum: Option<string>): (r: StatusName)
    ensures r == Unknown <==> bootNum.None? || bootNum.value == ""
    ensures r != FollowBootOrder
    ensures r.Named? && info.Some? && HasNumber(info.value.entries, bootNum.value) ==>
              exists k | 0 <= k < |info.value.entries| ::
                && info.value.entries[k].number == bootNum.value
                && r.text == info.value.entries[k].name
                && forall j | 0 <= j < k :: info.value.entries[j].number != bootNum.value
    ensures r.Named? && (info.None? || !HasNumber(info.value.entries, bootNum.value)) ==>
              r.text == "Boot" + bootNum.value
  {
    if bootNum.None? || bootNum.value == "" then Unknown
    else
      var entries := if info.Some? then info.value.entries else [];
      var k := FindNumber(entries, bootNum.value);
      if k < |entries| then Named(entries[k].name) else Named("Boot" + bootNum.value)
  }

  /** The "current boot" row: `getEntryName(bootInfo?.bootCurrent || null)`. */
  function CurrentBootName(info: Option<BootInfo>): StatusName {
    EntryName(info, if info.Some? then info.value.bootCurrent else None)
  }

  /** The "next boot" row: the entry name when BootNext is set, otherwise
      "follow boot order". */
  function NextBootName(info: Option<BootInfo>): StatusName {
    if info.Some? && info.value.bootNext.Some? && info.value.bootNext.value != "" then
      EntryName(info, info.value.bootNext)
    else FollowBootOrder
  }

  /** For parsed output the rows show "unknown" and "follow boot order"
      exactly when the header is missing, and any other name is either a
      clean label or "Boot" followed by four digits. */
  lemma StatusOfParsedOutput(output: string)
    ensures var info := ParseBootOutput(output);
            && (CurrentBootName(Some(info)) == Unknown <==> info.bootCurrent.None?)
            && (NextBootName(Some(info)) == FollowBootOrder <==> info.bootNext.None?)
            && (CurrentBootName(Some(info)).Named? ==> NamedClean(CurrentBootName(Some(info)).text))
            && (NextBootName(Some(info)).Named? ==> NamedClean(NextBootName(Some(info)).text))
  {
    var info := ParseBootOutput(output);
    ParseBootOutputWellFormed(output);
    NamesOfWellFormed(info, info.bootCurrent);
    NamesOfWellFormed(info, info.bootNext);
  }

  /** A status text that is a clean label or the "Boot" fallback. */
  ghost predicate NamedClean(t: string) {
    IsCleanLabel(t) || (|t| == 8 && t[..4] == "Boot" && IsBootNumber(t[4..]))
  }

  lemma NamesOfWellFormed(info: BootInfo, num: Option<string>)
    requires WellFormed(info)
    requires num.Some? ==> IsBootNumber(num.value)
    ensures EntryName(Some(info), num).Named? ==> NamedClean(EntryName(Some(info), num).text)
  {
    if num.Some? {
      var k := FindNumber(info.entries, num.value);
      if k < |info.entries| {
        assert WellFormedEntry(info.entries[k]);
      } else {
        var t := "Boot" + num.value;
        assert t[..4] == "Boot" && t[4..] == num.value;
      }
    }
  }
}

=== FILE: text.dfy ===
/** The JavaScript string built-ins the boot panel relies on, over strings of
    Unicode scalar values: `trim`, `toLowerCase`, `includes`, `split` and
    `join` with a one-character separator. */
module Text {
  import opened Scan

  /** ECMAScript WhiteSpace and LineTerminator: the characters that
      String.prototype.trim strips and that the regular-expression class \s
      matches. One predicate serves both. */
  predicate IsSpace(c: char) {
    || c == '\t' || c == '\n' || c == '\U{000B}' || c == '\U{000C}' || c == '\r'
    || c == ' ' || c == '\U{00A0}' || c == '\U{1680}'
    || ('\U{2000}' <= c <= '\U{200A}')
    || c == '\U{2028}' || c == '\U{2029}' || c == '\U{202F}' || c == '\U{205F}'
    || c == '\U{3000}' || c == '\U{FEFF}'
  }

  /** ECMAScript LineTerminator. */
  predicate IsLineTerminator(c: char) {
    c == '\n' || c == '\r' || c == '\U{2028}' || c == '\U{2029}'
  }

  /** The characters the regular-expression `.` matches (no `s` flag). */
  predicate IsLineChar(c: char) {
    !IsLineTerminator(c)
  }

  /** The regular-expression class \d. */
  predicate IsDigit(c: char) {
    '0' <= c <= '9'
  }

  predicate AllDigits(s: string) {
    AllIn(s, 0, |s|, IsDigit)
  }

  /** No leading and no trailing whitespace. */
  predicate IsTrimmed(s: string) {
    |s| == 0 || (!IsSpace(s[0]) && !IsSpace(s[|s| - 1]))
  }

  function TrimStart(s: string): (r: string)
    ensures |r| <= |s| && r == s[|s| - |r|..]
    ensures AllIn(s, 0, |s| - |r|, IsSpace)
    ensures |r| == 0 || !IsSpace(r[0])
  {
    if |s| > 0 && IsSpace(s[0]) then TrimStart(s[1..]) else s
  }

  function TrimEnd(s: string): (r: string)
    ensures |r| <= |s| && r == s[..|r|]
    ensures AllIn(s, |r|, |s|, IsSpace)
    ensures |r| == 0 || !IsSpace(r[|r| - 1])
  {
    if |s| > 0 && IsSpace(s[|s| - 1]) then TrimEnd(s[..|s| - 1]) else s
  }

  /** r is the slice of s that starts at a. */
  predicate SliceAt(r: string, s: string, a: int) {
    0 <= a <= |s| - |r| && r == s[a..a + |r|]
  }

  /** A slice of a slice is a slice of the original. */
  lemma SliceOfSlice(s: string, a: int, b: int, c: int, d: int)
    requires 0 <= a <= b <= |s| && 0 <= c <= d <= b - a
    ensures s[a..b][c..d] == s[a + c..a + d]
  {
    var x, y := s[a..b][c..d], s[a + c..a + d];
    assert |x| == |y|;
    forall j | 0 <= j < |x|
      ensures x[j] == y[j]
    {
      assert x[j] == s[a..b][c + j] == s[a + c + j];
    }
  }

  /** A slice of a slice is a slice of the original, at the summed offset. */
  lemma SliceTrans(x: string, y: string, z: string, a: int, b: int)
    requires SliceAt(x, y, a) && SliceAt(y, z, b)
    ensures SliceAt(x, z, b + a)
  {
    SliceOfSlice(z, b, b + |y|, a, a + |x|);
  }

  /** String.prototype.trim. */
  function Trim(s: string): (r: string)
    ensures IsTrimmed(r)
    ensures IsTrimmed(s) ==> r == s
  {
    var t := TrimStart(s);
    var r := TrimEnd(t);
    assert |r| > 0 ==> r[0] == t[0];
    r
  }

  /** What trim removes is whitespace at the two ends and nothing else: the
      result is the slice of s at offset a, with only whitespace before and
      after it. */
  lemma TrimIsSlice(s: string) returns (a: nat)
    ensures SliceAt(Trim(s), s, a)
    ensures AllIn(s, 0, a, IsSpace) && AllIn(s, a + |Trim(s)|, |s|, IsSpace)
  {
    var t := TrimStart(s);
    var r := TrimEnd(t);
    assert Trim(s) == r;
    a := TrimSteps(s, t, r);
  }

  /** The two halves of trim, each a slice of its input. */
  lemma TrimSteps(s: string, t: string, r: string) returns (a: nat)
    requires |t| <= |s| && t == s[|s| - |t|..] && AllIn(s, 0, |s| - |t|, IsSpace)
    requires |r| <= |t| && r == t[..|r|] && AllIn(t, |r|, |t|, IsSpace)
    ensures a == |s| - |t|
    ensures SliceAt(r, s, a)
    ensures AllIn(s, 0, a, IsSpace) && AllIn(s, a + |r|, |s|, IsSpace)
  {
    a := |s| - |t|;
    assert SliceAt(t, s, a);
    assert SliceAt(r, t, 0);
    SliceTrans(r, t, s, 0, a);
    AllInOfSlice(t, s, a, |r|, |t|, IsSpace);
  }

  /** A class holding on a range of a slice holds on the matching range of
      the original. */
  lemma AllInOfSlice(t: string, s: string, a: int, lo: int, hi: int, cls: char -> bool)
    requires SliceAt(t, s, a) && AllIn(t, lo, hi, cls)
    ensures AllIn(s, a + lo, a + hi, cls)
  {
    forall k | a + lo <= k < a + hi
      ensures cls(s[k])
    {
      assert s[k] == t[k - a];
    }
  }

  /** The only characters whose lower-case form differs: 'A'..'Z'. */
  function LowerChar(c: char): char {
    if 'A' <= c <= 'Z' then (c as int + 32) as char else c
  }

  /** String.prototype.toLowerCase restricted to ASCII letters. */
  function Lower(s: string): string {
    seq(|s|, k requires 0 <= k < |s| => LowerChar(s[k]))
  }

  /** The small ASCII letters in alphabetical order. */
  const SmallLetters: string := "abcdefghijklmnopqrstuvwxyz"

  /** Lower-casing keeps the length, turns each ASCII capital into the small
      letter at the same place in the alphabet, and keeps every other
      character. */
  lemma LowerOnlyCapitals(s: string)
    ensures |Lower(s)| == |s|
    ensures forall k | 0 <= k < |s| && 'A' <= s[k] <= 'Z' ::
              Lower(s)[k] == SmallLetters[s[k] as int - 'A' as int]
    ensures forall k | 0 <= k < |s| && !('A' <= s[k] <= 'Z') :: Lower(s)[k] == s[k]
    ensures forall k | 0 <= k < |s| :: !('A' <= Lower(s)[k] <= 'Z')
  {
  }

  /** sub occurs in s starting at position i. */
  predicate OccursAt(s: string, sub: string, i: int) {
    0 <= i <= |s| - |sub| && s[i..i + |sub|] == sub
  }

  /** String.prototype.includes. */
  predicate Contains(s: string, sub: string) {
    exists i | 0 <= i <= |s| - |sub| :: OccursAt(s, sub, i)
  }

  /** String.prototype.indexOf for one character, with |s| for "absent". */
  function IndexOf(s: string, c: char): (k: nat)
    ensures k <= |s| && c !in s[..k]
    ensures k < |s| ==> s[k] == c
  {
    var isC := (i: nat) => i < |s| && s[i] == c;
    var k := FirstWhere(isC, 0, |s|);
    forall j | 0 <= j < k
      ensures s[..k][j] != c
    {
      assert !isC(j);
    }
    k
  }

  /** String.prototype.split with a one-character separator: the pieces
      between separators, one more piece than there are separators. */
  function Split(s: string, sep: char): (r: seq<string>)
    ensures |r| >= 1
    ensures forall k | 0 <= k < |r| :: sep !in r[k]
    decreases |s|
  {
    var k := IndexOf(s, sep);
    if k == |s| then [s] else [s[..k]] + Split(s[k + 1..], sep)
  }

  /** A split yields one more piece than there are separators. */
  lemma {:induction false} SplitCount(s: string, sep: char)
    ensures |Split(s, sep)| == multiset(s)[sep] + 1
    decreases |s|
  {
    var k := IndexOf(s, sep);
    if k < |s| {
      SplitCount(s[k + 1..], sep);
      assert s == s[..k] + [sep] + s[k + 1..];
      assert multiset(s[..k])[sep] == 0;
    } else {
      assert s[..k] == s;
    }
  }

  /** Array.prototype.join with a one-character separator. */
  function Join(parts: seq<string>, sep: char): string {
    if |parts| == 0 then ""
    else if |parts| == 1 then parts[0]
    else parts[0] + [sep] + Join(parts[1..], sep)
  }

  /** Joining the pieces of a split restores the string. */
  lemma {:induction false} SplitJoin(s: string, sep: char)
    ensures Join(Split(s, sep), sep) == s
    decreases |s|
  {
    var k := IndexOf(s, sep);
    if k < |s| {
      var rest := Split(s[k + 1..], sep);
      SplitJoin(s[k + 1..], sep);
      assert Split(s, sep) == [s[..k]] + rest;
      assert ([s[..k]] + rest)[1..] == rest;
      assert Join(Split(s, sep), sep) == s[..k] + [sep] + Join(rest, sep);
      assert s == s[..k] + [sep] + s[k + 1..];
    }
  }

  /** Splitting a join of separator-free pieces gives the pieces back. */
  lemma {:induction false} JoinSplit(parts: seq<string>, sep: char)
    requires |parts| >= 1
    requires forall k | 0 <= k < |parts| :: sep !in parts[k]
    ensures Split(Join(parts, sep), sep) == parts
    decreases |parts|
  {
    if |parts| > 1 {
      var s := Join(parts, sep);
      var p := parts[0];
      assert s == p + [sep] + Join(parts[1..], sep);
      assert s[|p|] == sep;
      assert s[..|p|] == p;
      assert IndexOf(s, sep) == |p|;
      assert s[|p| + 1..] == Join(parts[1..], sep);
      JoinSplit(parts[1..], sep);
    } else {
      assert IndexOf(parts[0], sep) == |parts[0]|;
    }
  }

  /** Splitting distributes over a separator: the pieces of a + sep + b are
      the pieces of a followed by the pieces of b. */
  lemma {:induction false} SplitConcat(a: string, b: string, sep: char)
    ensures Split(a + [sep] + b, sep) == Split(a, sep) + Split(b, sep)
    decreases |a|
  {
    var s := a + [sep] + b;
    var k := IndexOf(a, sep);
    assert s[..k] == a[..k];
    if k == |a| {
      assert a[..k] == a;
      assert s[k] == sep;
      assert IndexOf(s, sep) == k;
      assert s[k + 1..] == b;
    } else {
      assert s[k] == sep;
      assert IndexOf(s, sep) == k;
      assert s[k + 1..] == a[k + 1..] + [sep] + b;
      SplitConcat(a[k + 1..], b, sep);
    }
  }

  /** Every piece of a split is made of characters of the split string. */
  lemma {:induction false} SplitPiecesWithin(s: string, sep: char, cls: char -> bool)
    requires AllIn(s, 0, |s|, cls)
    ensures forall k | 0 <= k < |Split(s, sep)| :: AllIn(Split(s, sep)[k], 0, |Split(s, sep)[k]|, cls)
    decreases |s|
  {
    var k := IndexOf(s, sep);
    if k < |s| {
      var rest := s[k + 1..];
      assert AllIn(rest, 0, |rest|, cls) by {
        assert forall j | 0 <= j < |rest| :: rest[j] == s[k + 1 + j];
      }
      SplitPiecesWithin(rest, sep, cls);
      assert Split(s, sep) == [s[..k]] + Split(rest, sep);
    }
  }

  /** A join of pieces drawn from a class, with a separator in the class, stays in the class. */
  lemma {:induction false} JoinWithin(parts: seq<string>, sep: char, cls: char -> bool)
    requires cls(sep)
    requires forall k | 0 <= k < |parts| :: AllIn(parts[k], 0, |parts[k]|, cls)
    ensures AllIn(Join(parts, sep), 0, |Join(parts, sep)|, cls)
    decreases |parts|
  {
    if |parts| > 1 {
      JoinWithin(parts[1..], sep, cls);
      var head, tail := parts[0] + [sep], Join(parts[1..], sep);
      assert AllIn(parts[0], 0, |parts[0]|, cls);
      assert forall j | 0 <= j < |head + tail| :: (head + tail)[j] == if j < |head| then head[j] else tail[j - |head|];
    }
  }
}

=== FILE: working_order.dfy ===
/** The list the panel shows and reorders (src/index.tsx lines 219-229):
    only SteamOS and Windows entries, first those BootOrder lists, in
    BootOrder's order, then the others in input order. */
module WorkingOrder {
  import opened Text
  import opened Seqs
  import opened BootModel

  /** The substrings looked for in the lower-cased label. */
  const SteamOSKeyword := "steamos"
  const WindowsKeyword := "windows"

  /** The label mentions SteamOS or Windows, ignoring ASCII case. */
  predicate IsRecognized(e: BootEntry) {
    Contains(Lower(e.name), SteamOSKeyword) || Contains(Lower(e.name), WindowsKeyword)
  }

  /** `filteredEntries`: the recognized entries in input order. */
  function Recognized(entries: seq<BootEntry>): seq<BootEntry> {
    Filter(entries, IsRecognized)
  }

  /** The test `filteredEntries.find(...)` passes for a BootOrder id. */
  function KnownIn(rec: seq<BootEntry>): string -> bool {
    (id: string) => HasNumber(rec, id)
  }

  /** The test of `remaining`: BootOrder does not include the number. */
  function NotListedIn(order: seq<string>): BootEntry -> bool {
    (e: BootEntry) => e.number !in order
  }

  /** `ordered`: each BootOrder id mapped to the first recognized entry with
      that number, ids without one dropped. So the numbers follow BootOrder
      with the unknown ids removed. */
  function Listed(order: seq<string>, rec: seq<BootEntry>): (r: seq<BootEntry>)
    ensures Numbers(r) == Filter(order, KnownIn(rec))
    decreases |order|
  {
    if |order| == 0 then []
    else
      var k := FindNumber(rec, order[0]);
      var head := if k < |rec| then [rec[k]] else [];
      var tail := Listed(order[1..], rec);
      NumbersAppend(head, tail);
      assert Numbers(head) == if KnownIn(rec)(order[0]) then [order[0]] else [];
      assert Filter(order, KnownIn(rec))
          == (if KnownIn(rec)(order[0]) then [order[0]] else []) + Filter(order[1..], KnownIn(rec));
      head + tail
  }

  /** Every entry of `ordered` is the first recognized entry with its number. */
  lemma {:induction false} ListedAreFirst(order: seq<string>, rec: seq<BootEntry>)
    ensures forall e | e in Listed(order, rec) ::
              FindNumber(rec, e.number) < |rec| && rec[FindNumber(rec, e.number)] == e
    decreases |order|
  {
    if |order| > 0 {
      ListedAreFirst(order[1..], rec);
      var k := FindNumber(rec, order[0]);
      var head := if k < |rec| then [rec[k]] else [];
      assert Listed(order, rec) == head + Listed(order[1..], rec);
    }
  }

  /** `remaining`: the recognized entries whose number BootOrder does not
      include, in input order. */
  function Unlisted(rec: seq<BootEntry>, order: seq<string>): seq<BootEntry> {
    Filter(rec, NotListedIn(order))
  }

  /** `[...ordered, ...remaining]`. Only recognized input entries appear, and
      every entry BootOrder lists comes before every entry it does not. */
  function DeriveWorkingOrder(info: BootInfo): (r: seq<BootEntry>)
    ensures forall e | e in r :: e in info.entries && IsRecognized(e)
    ensures forall i, j | 0 <= i < j < |r| && r[i].number !in info.bootOrder ::
              r[j].number !in info.bootOrder
  {
    var rec := Recognized(info.entries);
    WorkingOrderParts(info.bootOrder, rec);
    Listed(info.bootOrder, rec) + Unlisted(rec, info.bootOrder)
  }

  /** The two parts hold recognized entries only, and every number of the
      first part is in BootOrder while no number of the second part is. */
  lemma WorkingOrderParts(order: seq<string>, rec: seq<BootEntry>)
    ensures var r := Listed(order, rec) + Unlisted(rec, order);
            && (forall e | e in r :: e in rec)
            && forall i, j | 0 <= i < j < |r| && r[i].number !in order :: r[j].number !in order
  {
    var listed := Listed(order, rec);
    var rest := Unlisted(rec, order);
    ListedAreFirst(order, rec);
    ListedNumbersInOrder(order, rec);
    forall e | e in listed
      ensures e in rec
    {
      assert rec[FindNumber(rec, e.number)] == e;
    }
    forall k | 0 <= k < |rest|
      ensures rest[k].number !in order
    {
      assert rest[k] in rest;
    }
    ListedThenUnlisted(listed, rest, order);
  }

  /** Joining a part whose numbers BootOrder lists to one whose numbers it
      does not: once a number is missing, every later one is missing too. */
  lemma ListedThenUnlisted(listed: seq<BootEntry>, rest: seq<BootEntry>, order: seq<string>)
    requires forall k | 0 <= k < |listed| :: listed[k].number in order
    requires forall k | 0 <= k < |rest| :: rest[k].number !in order
    ensures var r := listed + rest;
            forall i, j | 0 <= i < j < |r| && r[i].number !in order :: r[j].number !in order
  {
    var r := listed + rest;
    forall i, j | 0 <= i < j < |r| && r[i].number !in order
      ensures r[j].number !in order
    {
      assert r[j] == rest[j - |listed|];
    }
  }

  /** Every entry of `ordered` has a number BootOrder lists. */
  lemma ListedNumbersInOrder(order: seq<string>, rec: seq<BootEntry>)
    ensures forall k | 0 <= k < |Listed(order, rec)| :: Listed(order, rec)[k].number in order
  {
    var r := Listed(order, rec);
    forall k | 0 <= k < |r|
      ensures r[k].number in order
    {
      assert Numbers(r)[k] == r[k].number;
      assert Numbers(r)[k] in Filter(order, KnownIn(rec));
    }
  }

  /** An entry is shown exactly when it is recognized and, if BootOrder lists
      its number, it is the first recognized entry with that number. */
  lemma WorkingOrderMembers(info: BootInfo, e: BootEntry)
    ensures var rec := Recognized(info.entries);
            e in DeriveWorkingOrder(info) <==>
              e in info.entries && IsRecognized(e)
              && (e.number in info.bootOrder ==> rec[FindNumber(rec, e.number)] == e)
  {
    var rec := Recognized(info.entries);
    if e in DeriveWorkingOrder(info) && e.number in info.bootOrder {
      ShownIsFirst(info, e);
    }
    if e in info.entries && IsRecognized(e)
       && (e.number in info.bootOrder ==> rec[FindNumber(rec, e.number)] == e) {
      FirstIsShown(info, e);
    }
  }

  /** A shown entry BootOrder lists is the first recognized one with its number. */
  lemma ShownIsFirst(info: BootInfo, e: BootEntry)
    requires e in DeriveWorkingOrder(info) && e.number in info.bootOrder
    ensures var rec := Recognized(info.entries);
            rec[FindNumber(rec, e.number)] == e
  {
    var rec := Recognized(info.entries);
    var rest := Unlisted(rec, info.bootOrder);
    ListedAreFirst(info.bootOrder, rec);
    assert e !in rest;
  }

  /** A recognized entry is shown unless BootOrder lists its number and an
      earlier recognized entry has the same number. */
  lemma FirstIsShown(info: BootInfo, e: BootEntry)
    requires e in info.entries && IsRecognized(e)
    requires var rec := Recognized(info.entries);
             e.number in info.bootOrder ==> rec[FindNumber(rec, e.number)] == e
    ensures e in DeriveWorkingOrder(info)
  {
    var rec := Recognized(info.entries);
    var order := info.bootOrder;
    var listed := Listed(order, rec);
    assert e in rec;
    if e.number in order {
      var j :| 0 <= j < |order| && order[j] == e.number;
      assert KnownIn(rec)(order[j]);
      assert e.number in Numbers(listed);
      var k :| 0 <= k < |listed| && Numbers(listed)[k] == e.number;
      ListedAreFirst(order, rec);
      assert listed[k] in listed;
    } else {
      assert NotListedIn(order)(e);
      assert e in Unlisted(rec, order);
    }
  }

  /** The shown list splits into a prefix whose numbers are BootOrder with the
      ids of no recognized entry removed, and a suffix holding the recognized
      entries BootOrder leaves out, in input order. */
  lemma WorkingOrderFollowsBootOrder(info: BootInfo)
    ensures var rec := Recognized(info.entries);
            var known := Filter(info.bootOrder, KnownIn(rec));
            var r := DeriveWorkingOrder(info);
            && |known| <= |r|
            && Numbers(r[..|known|]) == known
            && r[|known|..] == Filter(rec, NotListedIn(info.bootOrder))
  {
    var rec := Recognized(info.entries);
    var listed := Listed(info.bootOrder, rec);
    var r := DeriveWorkingOrder(info);
    assert r[..|listed|] == listed;
    assert r[|listed|..] == Unlisted(rec, info.bootOrder);
  }

  /** With distinct numbers among the recognized entries and a BootOrder
      without repeats, the shown list is a permutation of the recognized
      entries, and it shows each number once. */
  lemma WorkingOrderIsPermutation(info: BootInfo)
    requires UniqueNumbers(Recognized(info.entries))
    requires Distinct(info.bootOrder)
    ensures multiset(DeriveWorkingOrder(info)) == multiset(Recognized(info.entries))
    ensures UniqueNumbers(DeriveWorkingOrder(info))
  {
    var rec := Recognized(info.entries);
    var r := DeriveWorkingOrder(info);
    WorkingOrderUnique(info);
    UniqueNumbersDistinct(r);
    UniqueNumbersDistinct(rec);
    ShownAreRecognized(info);
    SameElementsPermutation(r, rec);
  }

  /** Under the same conditions an entry is shown exactly when it is a
      recognized entry. */
  lemma ShownAreRecognized(info: BootInfo)
    requires UniqueNumbers(Recognized(info.entries))
    ensures forall e :: e in DeriveWorkingOrder(info) <==> e in Recognized(info.entries)
  {
    forall e
      ensures e in DeriveWorkingOrder(info) <==> e in Recognized(info.entries)
    {
      ShownIffRecognized(info, e);
    }
  }

  /** One entry at a time: with distinct numbers, a recognized entry is the
      first one with its number, so it is shown. */
  lemma ShownIffRecognized(info: BootInfo, e: BootEntry)
    requires UniqueNumbers(Recognized(info.entries))
    ensures e in DeriveWorkingOrder(info) <==> e in Recognized(info.entries)
  {
    var rec := Recognized(info.entries);
    WorkingOrderMembers(info, e);
    if e in rec {
      FirstWithItsNumber(rec, e);
    }
  }

  /** With distinct numbers, an entry is the first one carrying its number. */
  lemma FirstWithItsNumber(rec: seq<BootEntry>, e: BootEntry)
    requires UniqueNumbers(rec)
    requires e in rec
    ensures FindNumber(rec, e.number) < |rec| && rec[FindNumber(rec, e.number)] == e
  {
    var i :| 0 <= i < |rec| && rec[i] == e;
    FindNumberOfUnique(rec, i);
  }

  /** Under the same conditions no number is shown twice. */
  lemma WorkingOrderUnique(info: BootInfo)
    requires UniqueNumbers(Recognized(info.entries))
    requires Distinct(info.bootOrder)
    ensures UniqueNumbers(DeriveWorkingOrder(info))
  {
    var rec := Recognized(info.entries);
    var order := info.bootOrder;
    var listed := Listed(order, rec);
    var rest := Unlisted(rec, order);
    var r := DeriveWorkingOrder(info);
    ListedNumbersInOrder(order, rec);
    FilterKeepsDistinct(order, KnownIn(rec));
    UniqueNumbersFilter(rec, NotListedIn(order));
    forall i, j | 0 <= i < j < |r|
      ensures r[i].number != r[j].number
    {
      if j < |listed| {
        assert Numbers(listed)[i] == r[i].number && Numbers(listed)[j] == r[j].number;
      } else if i >= |listed| {
        assert r[i] == rest[i - |listed|] && r[j] == rest[j - |listed|];
      } else {
        assert r[j] in rest;
      }
    }
  }

  /** A BootOrder id that a recognized entry carries is shown once per
      occurrence in BootOrder: the panel does not guard against a repeated id. */
  lemma RepeatedIdRepeatsEntry(info: BootInfo, id: string)
    requires HasNumber(Recognized(info.entries), id) && id in info.bootOrder
    ensures multiset(Numbers(DeriveWorkingOrder(info)))[id] == multiset(info.bootOrder)[id]
  {
    var rec := Recognized(info.entries);
    var order := info.bootOrder;
    var listed := Listed(order, rec);
    var rest := Unlisted(rec, order);
    NumbersAppend(listed, rest);
    FilterCount(order, KnownIn(rec), id);
    assert KnownIn(rec)(id);
    forall k | 0 <= k < |rest|
      ensures Numbers(rest)[k] != id
    {
      assert rest[k] in rest;
    }
    assert id !in Numbers(rest);
  }

  /** The test that BootOrder includes an entry's number. */
  function ListedIn(order: seq<string>): BootEntry -> bool {
    (e: BootEntry) => e.number in order
  }

  /** With a repeat-free BootOrder the panel shows no more entries than
      there are recognized ones. */
  lemma WorkingOrderBounded(info: BootInfo)
    requires Distinct(info.bootOrder)
    ensures |DeriveWorkingOrder(info)| <= |Recognized(info.entries)|
  {
    var rec := Recognized(info.entries);
    var order := info.bootOrder;
    var listed := Listed(order, rec);
    ListedWithinOrdered(order, rec);
    DistinctWithin(listed, Filter(rec, ListedIn(order)));
    assert forall x :: NotListedIn(order)(x) == !ListedIn(order)(x);
    FilterPartition(rec, ListedIn(order), NotListedIn(order));
  }

  /** With a repeat-free BootOrder, `ordered` repeats no entry, and each of
      its entries is a recognized entry whose number BootOrder includes. */
  lemma ListedWithinOrdered(order: seq<string>, rec: seq<BootEntry>)
    requires Distinct(order)
    ensures Distinct(Listed(order, rec))
    ensures forall e | e in Listed(order, rec) :: e in Filter(rec, ListedIn(order))
  {
    ListedDistinct(order, rec);
    var listed := Listed(order, rec);
    ListedAreFirst(order, rec);
    ListedNumbersInOrder(order, rec);
    forall e | e in listed
      ensures e in Filter(rec, ListedIn(order))
    {
      var k :| 0 <= k < |listed| && listed[k] == e;
      assert ListedIn(order)(e);
      assert rec[FindNumber(rec, e.number)] == e;
      assert e in rec;
    }
  }

  /** A repeat-free BootOrder gives an `ordered` list without repeats. */
  lemma ListedDistinct(order: seq<string>, rec: seq<BootEntry>)
    requires Distinct(order)
    ensures Distinct(Listed(order, rec))
  {
    var listed := Listed(order, rec);
    FilterKeepsDistinct(order, KnownIn(rec));
    forall i, j | 0 <= i < j < |listed|
      ensures listed[i].number != listed[j].number
    {
      assert Numbers(listed)[i] == listed[i].number && Numbers(listed)[j] == listed[j].number;
    }
    UniqueNumbersDistinct(listed);
  }
}
